=== FILE: README.md ===
# Mute plugin decision logic in Dafny

This project models the decision logic of the MoFox mute plugin (`plugin.py`).
The plugin has two entry points that end in the host's `GROUP_BAN` command:

- `MuteAction` is triggered by the language model. It receives a duration and
  an optional reason.
- `MuteCommand` is the `/mute <user> <seconds> [reason]` command typed by a
  chat member.

The model covers what both components decide:

- the admin, group and user permission checks;
- the parsing, rejection and bounding of the requested duration;
- the human-readable duration (`_format_duration`);
- template rendering (`_get_template_message`);
- the order of rejections in both `execute` methods;
- the texts, command and stored action record each outcome produces.

Host calls are not executed. They become fields of an outcome record:

- `send_text` calls become `texts`, in order;
- `send_command("GROUP_BAN", …)` becomes `ban`;
- `store_action_info` becomes `stored`.

The host's answer to `GROUP_BAN` is the input `dispatched`. The template that
`random.choice` draws is the input `pick`.

Modules, one per file:

| module | file | contents |
|---|---|---|
| `Options` | options.dfy | `Option` with a default accessor, for unset attributes and missing keys |
| `Numerals` | numerals.dfy | Python `str(int)` and the part of `int(str)` the plugin relies on: surrounding whitespace (Python's whitespace except U+001C–U+001F), a sign, at most 4300 decimal digits |
| `Tokens` | tokens.dfy | Python `str.split()` with no separator, over Python's whitespace set |
| `Duration` | duration.dfy | `_format_duration`, the min/max adjustment, and duration validation |
| `Permissions` | permissions.dfy | `"platform:id"` keys and the three permission checks |
| `Templates` | templates.dfy | `str.format` restricted to `{target}`, `{duration}` and `{reason}`, plus a reference description of templates as pieces |
| `Policy` | policy.dfy | the configuration record, the call-site defaults, the default templates |
| `MuteAction` | mute_action.dfy | `MuteAction.execute` |
| `MuteCommand` | mute_command.dfy | `MuteCommand.execute` |

### Behaviour worth knowing

The model follows the code in each case below.

- **Action: rejection order.** The group verdict is computed first but acted on
  last. The order is:
  1. a missing duration;
  2. an unparsable duration;
  3. a non-positive duration;
  4. an admin target;
  5. a refused group.

  An admin target in a private chat is therefore reported as an admin, not as
  "group chats only".
- **Action: two rejections send no chat text.** An unparsable duration and an
  admin target are only returned to the host; the admin refusal is also
  recorded with `done=False`. The missing, non-positive and group-refused cases
  each send a text, and the group refusal is recorded with `done=True`.
- **Action: who is muted and who is named.** The action mutes the user whose
  message triggered it (`user_id`). The message names that user by
  `user_nickname`, which falls back to `用户`, not to the raw id. For a
  triggering user without a nickname who asks for 30 seconds, the message
  reads `好的，禁言 用户 1分钟，理由：违反群规`. It does not contain `u1`.
- **Action: message timing.** The message is sent before `GROUP_BAN`, so it
  reaches the chat even when the host refuses the command. The model keeps the
  texts and the command in separate fields. It therefore states that the message
  is the first text whether or not the command is dispatched, not the order of
  the two calls.
- **Command: requester check comes first.** The requester's allow-list check
  happens before the text is parsed.
- **Command: the reason is the fourth token alone.** It is not the joined
  remainder of the line: `/mute u1 60 too much spam` gives the reason `too`.
- **Command: message timing.** The message is rendered and sent only after
  `GROUP_BAN` succeeded. A duration warning (`⚠️ 禁言时长过短…` / `过长…`)
  precedes it when a bound applied.
- **No configuration validation.**
  - With `min_duration > max_duration`, the adjustment is not a clamp: a value
    below the minimum becomes the minimum, even if that is above the maximum.
  - An empty template list is not rejected up front. `random.choice` raises
    once every check has passed.
    - In the action, the exception escapes `execute`. The model gives a
      `Raised` reply with nothing muted.
    - In the command, `GROUP_BAN` has already been sent. The catch-all handler
      turns the exception into a failed reply.

## Model

| member | source | states |
|---|---|---|
| `Duration.FormatDurationReadsBack` | plugin.py:201-213 | The rendering is exactly `str` of a count followed by its unit word. Reading it back gives the seconds below a minute. Otherwise it gives the largest of minute, hour and day not longer than the duration, and the truncated count of it (count × unit ≤ seconds < (count + 1) × unit). |
| `Duration.FormatDurationCountBounds` | plugin.py:338-350 | From a minute on, the rendered count is 1–59 minutes, 1–23 hours, or at least one day. The unit is never seconds. |
| `Duration.FormatDurationSamples` | plugin.py:203-213 | Unit boundaries and truncation: 59 → 59秒, 60 and 90 → 1分钟, 3599 → 59分钟, 3600 → 1小时, 86400 → 1天. |
| `Duration.ParseDurationOf` | plugin.py:204-213 | `str` of any count followed by a unit word reads back as that count and unit, so different counts or units never render the same text. |
| `Duration.Clamp` | plugin.py:124-130 | With min ≤ max, the adjusted value lies in [min, max], and a value already in range is kept. The result is always the value, the minimum or the maximum. |
| `Duration.ClampIsMaxMin` | plugin.py:282-288 | With min ≤ max, the adjustment equals max(min, min(value, max)). It is idempotent, and it raises values below the minimum and lowers values above the maximum. |
| `Duration.CheckDuration` | plugin.py:116-135 | The duration text is unparsable exactly when `int()` fails, not positive exactly when it parses to ≤ 0, and accepted otherwise. An accepted duration is the adjusted value. The raised and lowered marks hold exactly when the respective bound applied. |
| `Numerals.ParseIntToString` | plugin.py:173 | `int(str(n)) == n` for every integer of at most 4300 digits, and `int()` raises beyond that. |
| `Numerals.ReadIntToString` | plugin.py:173 | `str(n)` is a decimal numeral whose value is `n`, for every integer, so the `GROUP_BAN` duration text carries exactly the adjusted seconds. |
| `Numerals.ParseIntIsBoundedRead` | plugin.py:117 | `int()` gives the value of a numeral of at most 4300 digits and fails on a longer one. |
| `Numerals.ParseIntTooLong` | plugin.py:117 | A run of more than 4300 digits is a numeral, yet `int()` refuses it. |
| `Numerals.IntToStringInjective` | plugin.py:312 | Distinct durations are sent as distinct texts. |
| `Numerals.ParseIntRejectsForeign` | plugin.py:290-292 | Text holding a character that is not a digit, a sign or whitespace `int()` strips is not an integer. This includes the separators U+001C–U+001F, which `split()` treats as whitespace but `int()` does not strip. |
| `Numerals.ParseThirty` | plugin.py:117 | `"30"` parses to 30. |
| `Numerals.SixtyText` | plugin.py:284 | The default minimum 60 renders as `"60"`. |
| `Duration.TooManyDigitsUnparsable` | plugin.py:116-135 | A duration of more than 4300 digits is unparsable, not lowered to the maximum, whatever the bounds. |
| `Duration.SeparatorUnparsable` | plugin.py:116-135 | The duration `"\x1c30"` is unparsable, whatever the bounds, because `int()` does not strip U+001C. |
| `Tokens.SplitTokens` | plugin.py:263 | Every token `split()` yields is non-empty and free of whitespace. |
| `Tokens.SplitConcat` | plugin.py:263 | The tokens, concatenated, are the input with all whitespace removed: nothing but whitespace is dropped, and order is kept. |
| `Tokens.SplitJoinSpace` | plugin.py:263-270 | Splitting tokens joined by single spaces gives back exactly those tokens. |
| `Permissions.Contains` | plugin.py:66-70 | The early-exit scan over a configured list finds a key exactly when the key is in the list. |
| `Permissions.AdminCheck` | plugin.py:59-70 | Fails exactly when `platform:user` is listed among the admins, with the message naming that key. An empty admin list protects nobody. |
| `Permissions.GroupCheck` | plugin.py:72-91 | Passes exactly in a group chat whose `platform:group` key is listed, or in any group chat when the list is empty. Gives the group-only message outside groups and the no-permission message otherwise. |
| `Permissions.UserCheck` | plugin.py:235-250 | Passes exactly when the list is empty or `platform:user` is listed, and fails with the fixed no-permission message otherwise. |
| `Permissions.AllowListsAgree` | plugin.py:78-88 | In a group chat, the group allow-list and the user allow-list decide identically for the same list and id, and an empty list admits everyone. |
| `Templates.RenderSpell` | plugin.py:199 | Rendering a template built from brace-free text and the three fields gives its pieces with each field replaced by its value, all other text kept. |
| `Templates.RenderText` | plugin.py:336 | Brace-free text passes through rendering unchanged. |
| `Templates.RenderField` | plugin.py:199 | A `{target}`, `{duration}` or `{reason}` field at the front is replaced by its value. |
| `Policy.DefaultTemplatesWellFormed` | plugin.py:193-197 | Each default action template, as corrected, is built from brace-free text and the three fields. None writes a unit after the duration. Each renders to its pieces filled in. The command's two defaults are the first and third of the action's (plugin.py:331-334). |
| `Policy.ActionTemplateRepeatsUnit` | plugin.py:195 | As written, the second default template writes a unit right after the already-unit-bearing duration, so a one-minute mute renders `出于理由：刷屏，我将对 u1 无情捂嘴 1分钟 秒`. |
| `Policy.CorrectionDropsSuffix` | plugin.py:193-197 | The repaired list differs from the call site's defaults only in the second template, which loses its trailing ` 秒`. |
| `Policy.ActionTemplateCorrected` | plugin.py:195 | The corrected template, without the trailing ` 秒`, is built from brace-free text and the three fields and writes no unit after the duration. Filled in, its pieces read `出于理由：<reason>，我将对 <target> 无情捂嘴 <duration>`, ending with the duration text. |
| `Policy.CorrectedTemplateRenders` | plugin.py:199 | Rendering the corrected template gives `出于理由：<reason>，我将对 <target> 无情捂嘴 <duration>` for every target, duration text and reason, so a one-minute mute ends `1分钟` with its unit named once. |
| `MuteAction.Execute` | plugin.py:93-189 | The rejection order and each rejection's reply, texts and stored record, including the group refusal's record with `done=True`. The mute is issued exactly when the duration is accepted, the target is no admin, the group passes and a template can be drawn. It mutes the triggering user for `str` of the adjusted seconds, within bounds when min ≤ max. The rendered template is the first text. Success holds exactly when the mute is issued and dispatched, and then the reply, the single text and the record naming duration and reason are fixed. A refused command gives `发送禁言命令失败`, the message followed by `执行禁言动作失败`, and no record. An empty template list raises exactly when every check passed, before any text is sent or any action stored. |
| `MuteAction.ExecutePasses` | plugin.py:166-184 | A mute that passes every check and is dispatched gives the success reply, the rendered template as the only text, the `GROUP_BAN` arguments, and the stored record naming the duration and reason. |
| `MuteAction.RaisedDurationScenario` | plugin.py:101-184 | With the defaults, a 30-second request from `u1` without a nickname mutes `u1` for 60 seconds. The message is `好的，禁言 用户 1分钟，理由：违反群规` and the reply is `成功禁言 用户，时长 1分钟`. |
| `MuteAction.AdminScenario` | plugin.py:142-150 | Whatever the rest of the configuration, a listed admin `qq:123` is refused with the admin message even outside a group chat, and nothing is muted. |
| `MuteAction.UnparsableRefused` | plugin.py:132-135 | A duration that is not an integer is refused with `禁言时长格式无效: <text>`, before the admin and group checks, with no text, mute or record. |
| `MuteAction.UnparsableScenario` | plugin.py:116-135 | Under any configuration, the duration `abc` is refused as `禁言时长格式无效: abc`. |
| `MuteCommand.Execute` | plugin.py:252-327 | A requester outside a non-empty allow-list is refused before parsing. Fewer than three tokens gives the usage text. An unparsable or non-positive third token is refused with its messages. An admin target is never muted; an allowed requester gets the admin refusal after any bound warning. The mute is issued exactly when every check passes, on the second token for `str` of the adjusted third. Success needs dispatch and a template; the texts are then any bound warning followed by the rendered message. A refused command gives any bound warning followed by `❌ 发送禁言命令失败`, and no message is rendered. |
| `MuteCommand.MuteTarget` | plugin.py:268-322 | After tokenising: each duration rejection and the admin refusal with their exact outcome. The mute is issued exactly when the duration is accepted and the target is no admin, for `str` of the adjusted seconds. The texts are the bound warning, if any, followed by the rendered message on success, by `❌ 发送禁言命令失败` on a refused command, and by the handler's error text when no template can be drawn. |
| `MuteCommand.ExecuteOnTokens` | plugin.py:263-270 | For a line of space-separated tokens: the second token is the target, the third the duration, and the fourth, or `管理员操作`, the reason in the rendered message. |
| `MuteCommand.TrailingWordsIgnored` | plugin.py:270 | Words after the fourth token change nothing in the outcome: the reason is that token alone. |
| `MuteCommand.ExecuteAfterSplit` | plugin.py:256-270 | With at least three tokens, the outcome depends on the text only through the target, duration and reason tokens. |
| `MuteCommand.RaisedDurationScenario` | plugin.py:252-319 | With the defaults and an allowed requester, `/mute u1 30` mutes `u1` for 60 seconds. It first sends `⚠️ 禁言时长过短，调整为60秒`, then `好的，禁言 u1 1分钟，理由：管理员操作`, and replies `成功禁言 u1，时长 1分钟`. |

## Left out

- Logging (`logger.*`) has no effect on outcomes and is not modelled.
- `get_config` lookups are not modelled. They are read as the fields of one configuration record. `ActionDefaults` and `CommandDefaults` hold the defaults written at the call sites, with the action's templates as written.
- The configuration schema and component registration of `MutePlugin` (plugin.py:352-413) are host plumbing. The schema's own template default lists five templates, including the same `{duration} 秒` one; it is not modelled.
- `__init__.py` holds only package metadata and is not part of this model.
- The host's message routing is not modelled. This includes the command's restriction to group chats (`chat_type_allow`), which the host enforces before `execute` runs, and the LLM activation settings.
- The always-true third element of the command's return value is not modelled.
- `Numerals.ParseInt`: Python's `int()` also accepts `_` between digits and non-ASCII decimal digits. The model treats such text as unparsable. The digit limit is fixed at the default of 4300; `sys.set_int_max_str_digits` is not modelled.
- `Numerals.IntToString`: Python's `str(n)` raises past 4300 digits as well. The model renders every integer, so the `ValueError` that a bound or a duration of more than 4300 digits would raise in a notice or in the `GROUP_BAN` text is not modelled.
- Non-string action durations are not modelled. A language model could hand over a number or `None` through `action_data`; the model takes the duration as optional text, with an absent or empty one counting as missing.
- An attribute that exists but holds `None` (for example `user_id`) is not modelled. Python would render it as the text `None`.
- `Templates.Render` does not model `str.format` escapes (`{{`, `}}`), format specs, conversions, positional fields or `KeyError` on unknown names. Text outside the three fields is copied as it is. `Templates.RenderSpell` therefore assumes brace-free literal text.
- Exceptions other than `random.choice` on an empty template list are not modelled. These include a host call that raises, which the command's catch-all (plugin.py:324-327) would report.
- The uniform distribution of `random.choice` is not modelled. Any valid index may be drawn.

## Findings

| source | as written | input that shows it | evidently intended | confidence | as-written member | corrected member |
|---|---|---|---|---|---|---|
| plugin.py:195 | The second default action template is `出于理由：{reason}，我将对 {target} 无情捂嘴 {duration} 秒`. `{duration}` is filled with `_format_duration`'s text, which already ends in a unit. | A 60-second mute with reason `刷屏` of user `u1` renders `出于理由：刷屏，我将对 u1 无情捂嘴 1分钟 秒`. | The template without the trailing ` 秒`, like the other two defaults. | high; not executed | `Policy.ActionTemplateRepeatsUnit` | `Policy.ActionTemplateCorrected` |

The same template text appears in the configuration schema default
(plugin.py:396). The model's `ActionDefaults` keeps the list as written, as the code does.
The repair is the list `Policy.ActionTemplates`, and
`Policy.DefaultTemplatesWellFormed` proves every template on it well-formed and
free of a repeated unit.

=== FILE: duration.dfy ===
/** Durations in seconds: the human-readable rendering shared by the action and
    the command, the bounds applied to a requested duration, and the validation
    of a requested duration's text. */
module Duration {
  import opened Options
  import opened Numerals

  datatype TimeUnit = Second | Minute | Hour | Day

  function UnitLength(u: TimeUnit): nat {
    match u
    case Second => 1
    case Minute => 60
    case Hour => 3600
    case Day => 86400
  }

  function UnitWord(u: TimeUnit): string {
    match u
    case Second => "秒"
    case Minute => "分钟"
    case Hour => "小时"
    case Day => "天"
  }

  /** `_format_duration`: seconds below a minute as seconds, otherwise the
      truncated count of the largest of minutes, hours and days that fits.
      Both components carry an identical copy of this function. */
  function FormatDuration(seconds: int): string {
    if seconds < 60 then IntToString(seconds) + "秒"
    else if seconds < 3600 then IntToString(seconds / 60) + "分钟"
    else if seconds < 86400 then IntToString(seconds / 3600) + "小时"
    else IntToString(seconds / 86400) + "天"
  }

  /** Reads a rendered duration back into its count and unit. */
  function ParseDuration(t: string): Option<(int, TimeUnit)> {
    var n := |t|;
    if n >= 1 && t[n - 1] == '秒' then WithUnit(ReadInt(t[..n - 1]), Second)
    else if n >= 2 && t[n - 2..] == "分钟" then WithUnit(ReadInt(t[..n - 2]), Minute)
    else if n >= 2 && t[n - 2..] == "小时" then WithUnit(ReadInt(t[..n - 2]), Hour)
    else if n >= 1 && t[n - 1] == '天' then WithUnit(ReadInt(t[..n - 1]), Day)
    else None
  }

  function WithUnit(count: Option<int>, u: TimeUnit): Option<(int, TimeUnit)> {
    match count
    case Some(q) => Some((q, u))
    case None => None
  }

  /** A count followed by a unit word reads back as that count and unit. */
  lemma ParseDurationOf(q: int, u: TimeUnit)
    ensures ParseDuration(IntToString(q) + UnitWord(u)) == Some((q, u))
  {
    var d := IntToString(q);
    // the last character of the count is a digit, never a letter of a unit word
    assert IsDigit(d[|d| - 1]) by {
      if q < 0 {
        assert d == "-" + NatToString(-q);
        assert d[|d| - 1] == NatToString(-q)[|NatToString(-q)| - 1];
      }
    }
    ParseDurationSplits(d, u);
    ReadIntToString(q);
  }

  /** Text ending in a digit, followed by a unit word, is split at the unit. */
  lemma ParseDurationSplits(d: string, u: TimeUnit)
    requires |d| > 0 && IsDigit(d[|d| - 1])
    ensures ParseDuration(d + UnitWord(u)) == WithUnit(ReadInt(d), u)
  {
    match u
    case Second => SplitSeconds(d);
    case Minute => SplitMinutes(d);
    case Hour => SplitHours(d);
    case Day => SplitDays(d);
  }

  lemma SplitSeconds(d: string)
    ensures ParseDuration(d + "秒") == WithUnit(ReadInt(d), Second)
  {
    var t := d + "秒";
    assert t[|t| - 1] == '秒';
    assert t[..|t| - 1] == d;
  }

  lemma SplitMinutes(d: string)
    requires |d| > 0 && IsDigit(d[|d| - 1])
    ensures ParseDuration(d + "分钟") == WithUnit(ReadInt(d), Minute)
  {
    var t := d + "分钟";
    var n := |t|;
    assert t[n - 1] == '钟';
    assert t[n - 2..] == "分钟";
    assert t[..n - 2] == d;
  }

  lemma SplitHours(d: string)
    requires |d| > 0 && IsDigit(d[|d| - 1])
    ensures ParseDuration(d + "小时") == WithUnit(ReadInt(d), Hour)
  {
    var t := d + "小时";
    var n := |t|;
    assert t[n - 1] == '时';
    assert t[n - 2..] == "小时";
    assert !(t[n - 2..] == "分钟");
    assert t[..n - 2] == d;
  }

  lemma SplitDays(d: string)
    requires |d| > 0 && IsDigit(d[|d| - 1])
    ensures ParseDuration(d + "天") == WithUnit(ReadInt(d), Day)
  {
    var t := d + "天";
    var n := |t|;
    assert t[n - 1] == '天';
    assert t[n - 2] == d[|d| - 1];
    assert !(t[n - 2..] == "分钟") && !(t[n - 2..] == "小时");
    assert t[..n - 1] == d;
  }

  /** What `_format_duration` promises: reading its text back gives, below a
      minute, the seconds themselves; otherwise the largest unit not longer than
      the duration and the whole number of those units in it (truncation, so 90
      seconds is one minute and 3599 seconds is 59 minutes). */
  lemma FormatDurationReadsBack(s: int)
    ensures ParseDuration(FormatDuration(s)).Some?
    ensures var (q, u) := ParseDuration(FormatDuration(s)).value;
      && FormatDuration(s) == IntToString(q) + UnitWord(u)
      && (s < 60 ==> u == Second && q == s)
      && (s >= 60 ==>
            && UnitLength(u) <= s
            && (forall v :: UnitLength(v) <= s ==> UnitLength(v) <= UnitLength(u))
            && q * UnitLength(u) <= s < (q + 1) * UnitLength(u))
  {
    var u := UnitOf(s);
    var q := if s < 60 then s else s / UnitLength(u);
    FormatDurationShape(s);
    ParseDurationOf(q, u);
    assert ParseDuration(FormatDuration(s)) == Some((q, u));
    if s >= 60 {
      TruncatedCount(s, UnitLength(u));
      LargestUnit(s);
    }
  }

  /** From a minute on, the chosen unit is the largest that fits. */
  lemma LargestUnit(s: int)
    requires s >= 60
    ensures UnitLength(UnitOf(s)) <= s
    ensures forall v :: UnitLength(v) <= s ==> UnitLength(v) <= UnitLength(UnitOf(s))
  {
  }

  /** The unit `_format_duration` picks for a number of seconds. */
  function UnitOf(s: int): TimeUnit {
    if s < 60 then Second else if s < 3600 then Minute else if s < 86400 then Hour else Day
  }

  lemma FormatDurationShape(s: int)
    ensures FormatDuration(s) == IntToString(if s < 60 then s else s / UnitLength(UnitOf(s))) + UnitWord(UnitOf(s))
  {
  }

  lemma TruncatedCount(s: int, k: int)
    requires k > 0
    ensures (s / k) * k <= s < (s / k + 1) * k
  {
  }

  /** From a minute on, the printed count stays within its unit: 1..59 minutes,
      1..23 hours, at least one day. */
  lemma FormatDurationCountBounds(s: int)
    requires s >= 60
    ensures ParseDuration(FormatDuration(s)).Some?
    ensures var (q, u) := ParseDuration(FormatDuration(s)).value;
      && u != Second
      && (u == Minute ==> 1 <= q <= 59)
      && (u == Hour ==> 1 <= q <= 23)
      && (u == Day ==> q >= 1)
  {
    if s < 3600 {
      ParseDurationOf(s / 60, Minute);
    } else if s < 86400 {
      ParseDurationOf(s / 3600, Hour);
    } else {
      ParseDurationOf(s / 86400, Day);
    }
  }

  /** Unit boundaries and truncation of `_format_duration`. */
  lemma FormatDurationSamples()
    ensures FormatDuration(59) == "59秒"
    ensures FormatDuration(60) == "1分钟"
    ensures FormatDuration(90) == "1分钟"
    ensures FormatDuration(3599) == "59分钟"
    ensures FormatDuration(3600) == "1小时"
    ensures FormatDuration(86400) == "1天"
  {
  }

  /** The `if < min ... elif > max` adjustment of a requested duration. It is a
      clamp into `[lo, hi]` only when `lo <= hi`. */
  function Clamp(d: int, lo: int, hi: int): (r: int)
    ensures lo <= hi ==> lo <= r <= hi
    ensures lo <= d <= hi ==> r == d
    ensures r == d || r == lo || r == hi
  {
    if d < lo then lo else if d > hi then hi else d
  }

  function Min(a: int, b: int): int { if a <= b then a else b }

  function Max(a: int, b: int): int { if a >= b then a else b }

  /** With ordered bounds the adjustment agrees with the textbook clamp, and
      applying it twice changes nothing more. */
  lemma ClampIsMaxMin(d: int, lo: int, hi: int)
    requires lo <= hi
    ensures Clamp(d, lo, hi) == Max(lo, Min(d, hi))
    ensures Clamp(Clamp(d, lo, hi), lo, hi) == Clamp(d, lo, hi)
    ensures d < lo ==> Clamp(d, lo, hi) == lo
    ensures d > hi ==> Clamp(d, lo, hi) == hi
  {
  }

  /** Which bound, if any, moved a requested duration. */
  datatype Adjustment = Kept | RaisedToMin | LoweredToMax

  /** The outcome of validating a requested duration's text. */
  datatype DurationCheck =
    | Unparsable                                // `int()` raised `ValueError`
    | NotPositive                               // parsed, but `<= 0`
    | Accepted(seconds: int, adjust: Adjustment)

  /** `int(duration)`, the rejection of values `<= 0`, then the bounds; shared
      by both components. */
  function CheckDuration(raw: string, lo: int, hi: int): (r: DurationCheck)
    ensures r.Unparsable? <==> ParseInt(raw).None?
    ensures r.NotPositive? <==> ParseInt(raw).Some? && ParseInt(raw).value <= 0
    ensures r.Accepted? <==> ParseInt(raw).Some? && ParseInt(raw).value > 0
    ensures r.Accepted? ==> r.seconds == Clamp(ParseInt(raw).value, lo, hi)
    ensures r.Accepted? && lo <= hi ==> lo <= r.seconds <= hi
    ensures r.Accepted? ==> (r.adjust == RaisedToMin <==> ParseInt(raw).value < lo)
    ensures r.Accepted? ==> (r.adjust == LoweredToMax <==> lo <= ParseInt(raw).value && ParseInt(raw).value > hi)
  {
    match ParseInt(raw)
    case None => Unparsable
    case Some(v) =>
      if v <= 0 then NotPositive
      else if v < lo then Accepted(lo, RaisedToMin)
      else if v > hi then Accepted(hi, LoweredToMax)
      else Accepted(v, Kept)
  }

  /** A run of more than 4300 digits is refused as unparsable, however large
      the number it spells, rather than lowered to the maximum. */
  lemma TooManyDigitsUnparsable(ds: string, lo: int, hi: int)
    requires |ds| > MaxStrDigits && AllDigits(ds)
    ensures CheckDuration(ds, lo, hi) == Unparsable
  {
    ParseIntTooLong(ds);
  }

  /** A number behind a separator `int()` does not strip is refused as
      unparsable, although `str.split()` would treat the separator as
      whitespace. */
  lemma SeparatorUnparsable(lo: int, hi: int)
    ensures CheckDuration("\U{1C}30", lo, hi) == Unparsable
  {
    ParseIntRejectsForeign("\U{1C}30", 0);
  }
}

=== FILE: mute_action.dfy ===
/** `MuteAction.execute`: the mute the language model decides on. The host
    calls become fields of the outcome: the texts sent to the chat, the
    `GROUP_BAN` command issued, and the action record stored for later prompts. */
module MuteAction {
  import opened Options
  import opened Numerals
  import opened Duration
  import opened Permissions
  import opened Templates
  import opened Policy

  /** What the host hands the action: chat attributes that may be unset, and
      the action data the model produced. */
  datatype ActionContext = ActionContext(
    platform: string,
    isGroup: bool,                // false also when the host set no `is_group`
    groupId: Option<string>,
    userId: Option<string>,       // the user whose message triggered the action
    userNickname: Option<string>,
    duration: Option<string>,     // action_data["duration"]
    reason: Option<string>)       // action_data["reason"]

  /** A `store_action_info` call: the text shown in later prompts and whether
      the action counts as done. */
  datatype StoredAction = StoredAction(display: string, done: bool)

  /** `execute`'s `(success, message)` return, or the exception it lets escape. */
  datatype Reply = Returned(success: bool, message: string) | Raised(error: string)

  datatype ActionOutcome = ActionOutcome(
    reply: Reply,
    texts: seq<string>,           // send_text calls, in order
    ban: Option<GroupBan>,        // the send_command("GROUP_BAN", ...) call, if made
    stored: Option<StoredAction>) // the store_action_info call, if made

  function RawDuration(ctx: ActionContext): string { ctx.duration.GetOr("") }
  function UserId(ctx: ActionContext): string { ctx.userId.GetOr("unknown") }
  function PersonName(ctx: ActionContext): string { ctx.userNickname.GetOr("用户") }
  function Reason(ctx: ActionContext): string { ctx.reason.GetOr("违反群规") }

  function GroupVerdict(ctx: ActionContext, cfg: Config): Check {
    GroupCheck(ctx.isGroup, cfg.allowedGroups, ctx.platform, ctx.groupId.GetOr("unknown"))
  }

  function AdminVerdict(ctx: ActionContext, cfg: Config): Check {
    AdminCheck(cfg.adminUsers, UserId(ctx), ctx.platform)
  }

  function DurationVerdict(ctx: ActionContext, cfg: Config): DurationCheck {
    CheckDuration(RawDuration(ctx), cfg.minDuration, cfg.maxDuration)
  }

  /** The action's decision sequence. `pick` is the template `random.choice`
      draws and `dispatched` the host's answer to the `GROUP_BAN` command.
      The group verdict is computed first but acted on last: a missing or bad
      duration wins over an admin target, which wins over a refused group. */
  function Execute(ctx: ActionContext, cfg: Config, pick: nat, dispatched: bool): (o: ActionOutcome)
    requires ValidPick(cfg, pick)
    // 1. no duration, or an empty one
    ensures RawDuration(ctx) == "" ==>
      o == ActionOutcome(Returned(false, "禁言时长不能为空"), ["没有指定禁言时长呢~"], None, None)
    // 2. a duration that is not an integer: reported to the host only
    ensures RawDuration(ctx) != "" && ParseInt(RawDuration(ctx)).None? ==>
      o == ActionOutcome(Returned(false, "禁言时长格式无效: " + RawDuration(ctx)), [], None, None)
    // 3. zero or a negative duration
    ensures RawDuration(ctx) != "" && ParseInt(RawDuration(ctx)).Some? && ParseInt(RawDuration(ctx)).value <= 0 ==>
      o == ActionOutcome(Returned(false, "禁言时长必须大于0"), ["禁言时长必须是正数哦~"], None, None)
    // 4. an admin target: refused whatever the group verdict, nothing sent to the chat
    ensures RawDuration(ctx) != "" && DurationVerdict(ctx, cfg).Accepted? && Key(ctx.platform, UserId(ctx)) in cfg.adminUsers ==>
      && o.reply == Returned(false, "用户 " + Key(ctx.platform, UserId(ctx)) + " 是管理员，无法被禁言")
      && o.texts == [] && o.ban == None
      && o.stored == Some(StoredAction("尝试禁言用户 " + PersonName(ctx) + "，但该用户是管理员，无法禁言", false))
    // 5. a refused group, once duration and target are fine
    ensures RawDuration(ctx) != "" && DurationVerdict(ctx, cfg).Accepted? && AdminVerdict(ctx, cfg).Pass? && GroupVerdict(ctx, cfg).Fail? ==>
      && o.reply == Returned(false, GroupVerdict(ctx, cfg).message)
      && o.texts == ["我想禁言" + PersonName(ctx) + "，但是我没有权限"] && o.ban == None
      && o.stored == Some(StoredAction("尝试禁言了用户 " + PersonName(ctx) + "，但是没有权限，无法禁言", true))
    // the mute is issued exactly when every check passes and a template can be drawn
    ensures o.ban.Some? <==>
      && RawDuration(ctx) != ""
      && ParseInt(RawDuration(ctx)).Some? && ParseInt(RawDuration(ctx)).value > 0
      && Key(ctx.platform, UserId(ctx)) !in cfg.adminUsers
      && ctx.isGroup && (cfg.allowedGroups == [] || Key(ctx.platform, ctx.groupId.GetOr("unknown")) in cfg.allowedGroups)
      && cfg.templates != []
    // it mutes the triggering user for the adjusted duration
    ensures o.ban.Some? ==>
      && o.ban.value.qqId == UserId(ctx)
      && o.ban.value.duration == IntToString(DurationVerdict(ctx, cfg).seconds)
      && ReadInt(o.ban.value.duration) == Some(DurationVerdict(ctx, cfg).seconds)
      && (cfg.minDuration <= cfg.maxDuration ==> cfg.minDuration <= DurationVerdict(ctx, cfg).seconds <= cfg.maxDuration)
    // the rendered template is the first text, whether or not the host accepts the command
    ensures o.ban.Some? ==>
      && |o.texts| > 0
      && o.texts[0] == Render(cfg.templates[pick], PersonName(ctx), FormatDuration(DurationVerdict(ctx, cfg).seconds), Reason(ctx))
    ensures o.reply.Returned? && o.reply.success <==> o.ban.Some? && dispatched
    // a dispatched mute is reported and recorded with the rendered duration and the reason
    ensures o.ban.Some? && dispatched ==>
      var timeStr := FormatDuration(DurationVerdict(ctx, cfg).seconds);
      && o.reply == Returned(true, "成功禁言 " + PersonName(ctx) + "，时长 " + timeStr)
      && |o.texts| == 1
      && o.stored == Some(StoredAction("尝试禁言了用户 " + PersonName(ctx) + "，时长 " + timeStr + "，原因：" + Reason(ctx), true))
    // a command the host refused: the message was already sent, a failure notice follows, nothing is recorded
    ensures o.ban.Some? && !dispatched ==>
      && o.reply == Returned(false, "发送禁言命令失败")
      && |o.texts| == 2 && o.texts[1] == "执行禁言动作失败"
      && o.stored == None
    // an empty template list makes `random.choice` raise once every check has passed
    ensures o.reply.Raised? <==>
      && o.ban.None? && RawDuration(ctx) != "" && DurationVerdict(ctx, cfg).Accepted?
      && AdminVerdict(ctx, cfg).Pass? && GroupVerdict(ctx, cfg).Pass?
    // the raise happens before any text is sent or any action is stored
    ensures o.reply.Raised? ==> o == ActionOutcome(Raised(EmptyChoice), [], None, None)
  {
    var groupVerdict := GroupVerdict(ctx, cfg);
    var raw := RawDuration(ctx);
    var reason := Reason(ctx);
    if raw == "" then
      ActionOutcome(Returned(false, "禁言时长不能为空"), ["没有指定禁言时长呢~"], None, None)
    else
      match CheckDuration(raw, cfg.minDuration, cfg.maxDuration)
      case Unparsable =>
        ActionOutcome(Returned(false, "禁言时长格式无效: " + raw), [], None, None)
      case NotPositive =>
        ActionOutcome(Returned(false, "禁言时长必须大于0"), ["禁言时长必须是正数哦~"], None, None)
      case Accepted(seconds, _) =>
        var userId := UserId(ctx);
        var person := PersonName(ctx);
        match AdminCheck(cfg.adminUsers, userId, ctx.platform)
        case Fail(adminError) =>
          ActionOutcome(Returned(false, adminError), [], None,
            Some(StoredAction("尝试禁言用户 " + person + "，但该用户是管理员，无法禁言", false)))
        case Pass =>
          var timeStr := FormatDuration(seconds);
          match groupVerdict
          case Fail(groupError) =>
            ActionOutcome(Returned(false, groupError), ["我想禁言" + person + "，但是我没有权限"], None,
              Some(StoredAction("尝试禁言了用户 " + person + "，但是没有权限，无法禁言", true)))
          case Pass =>
            if |cfg.templates| == 0 then
              ActionOutcome(Raised(EmptyChoice), [], None, None)
            else
              var message := Render(cfg.templates[pick], person, timeStr, reason);
              var ban := GroupBan(userId, IntToString(seconds));
              ReadIntToString(seconds);
              if dispatched then
                ActionOutcome(Returned(true, "成功禁言 " + person + "，时长 " + timeStr), [message], Some(ban),
                  Some(StoredAction("尝试禁言了用户 " + person + "，时长 " + timeStr + "，原因：" + reason, true)))
              else
                ActionOutcome(Returned(false, "发送禁言命令失败"), [message, "执行禁言动作失败"], Some(ban), None)
  }

  /** The unfolding of a mute that passes every check and goes through. */
  lemma ExecutePasses(ctx: ActionContext, cfg: Config, pick: nat)
    requires ValidPick(cfg, pick) && cfg.templates != []
    requires RawDuration(ctx) != "" && DurationVerdict(ctx, cfg).Accepted?
    requires AdminVerdict(ctx, cfg) == Pass && GroupVerdict(ctx, cfg) == Pass
    ensures var seconds := DurationVerdict(ctx, cfg).seconds;
      var timeStr := FormatDuration(seconds);
      Execute(ctx, cfg, pick, true)
      == ActionOutcome(Returned(true, "成功禁言 " + PersonName(ctx) + "，时长 " + timeStr),
           [Render(cfg.templates[pick], PersonName(ctx), timeStr, Reason(ctx))],
           Some(GroupBan(UserId(ctx), IntToString(seconds))),
           Some(StoredAction("尝试禁言了用户 " + PersonName(ctx) + "，时长 " + timeStr + "，原因：" + Reason(ctx), true)))
  {
  }

  /** The triggering message's sender, with no nickname known, asks for half a
      minute: the mute is raised to the one-minute minimum and the message names
      the sender by the fallback display name. */
  lemma RaisedDurationScenario()
    ensures Execute(ActionContext("qq", true, Some("g1"), Some("u1"), None, Some("30"), None), ActionDefaults(), 0, true)
         == ActionOutcome(Returned(true, "成功禁言 用户，时长 1分钟"),
              ["好的，禁言 用户 1分钟，理由：违反群规"],
              Some(GroupBan("u1", "60")),
              Some(StoredAction("尝试禁言了用户 用户，时长 1分钟，原因：违反群规", true)))
  {
    var ctx := ActionContext("qq", true, Some("g1"), Some("u1"), None, Some("30"), None);
    var cfg := ActionDefaults();
    ParseThirty();
    SixtyText();
    assert DurationVerdict(ctx, cfg) == Accepted(60, RaisedToMin);
    ExecutePasses(ctx, cfg, 0);
    FormatDurationSamples();
    ScenarioTexts();
  }

  lemma ScenarioTexts()
    ensures Render(ActionTemplatesAsWritten[0], "用户", FormatDuration(60), "违反群规") == "好的，禁言 用户 1分钟，理由：违反群规"
    ensures "成功禁言 " + "用户" + "，时长 " + FormatDuration(60) == "成功禁言 用户，时长 1分钟"
    ensures "尝试禁言了用户 " + "用户" + "，时长 " + FormatDuration(60) + "，原因：" + "违反群规"
         == "尝试禁言了用户 用户，时长 1分钟，原因：违反群规"
  {
    FormatDurationSamples();
    ScenarioMessage();
    ScenarioLines();
  }

  lemma ScenarioLines()
    ensures "成功禁言 " + "用户" + "，时长 " + "1分钟" == "成功禁言 用户，时长 1分钟"
    ensures "尝试禁言了用户 " + "用户" + "，时长 " + "1分钟" + "，原因：" + "违反群规"
         == "尝试禁言了用户 用户，时长 1分钟，原因：违反群规"
  {
  }

  lemma ScenarioMessage()
    ensures Render(ActionTemplatesAsWritten[0], "用户", FormatDuration(60), "违反群规") == "好的，禁言 用户 1分钟，理由：违反群规"
  {
    FormatDurationSamples();
    CorrectionDropsSuffix();
    DefaultTemplatesWellFormed(0, "用户", 60, "违反群规");
    OkayFilled("用户", "1分钟", "违反群规");
    ScenarioLiteral();
  }

  lemma ScenarioLiteral()
    ensures "好的，禁言 " + "用户" + " " + "1分钟" + "，理由：" + "违反群规" == "好的，禁言 用户 1分钟，理由：违反群规"
  {
  }

  /** Under any configuration listing "qq:123" as an admin, that user is refused
      even outside a group chat: the admin verdict is reported, not the group
      one, and nothing is muted. */
  lemma AdminScenario(cfg: Config, pick: nat, dispatched: bool)
    requires ValidPick(cfg, pick) && "qq:123" in cfg.adminUsers
    ensures var o := Execute(ActionContext("qq", false, None, Some("123"), None, Some("30"), None), cfg, pick, dispatched);
      && o.reply == Returned(false, "用户 qq:123 是管理员，无法被禁言")
      && o.ban == None
  {
    var ctx := ActionContext("qq", false, None, Some("123"), None, Some("30"), None);
    AdminKey();
    AdminRefused(ctx, cfg, pick, dispatched);
  }

  lemma AdminKey()
    ensures Key("qq", "123") == "qq:123"
    ensures "用户 " + Key("qq", "123") + " 是管理员，无法被禁言" == "用户 qq:123 是管理员，无法被禁言"
  {
    assert Key("qq", "123") == "qq:123";
  }

  lemma AdminRefused(ctx: ActionContext, cfg: Config, pick: nat, dispatched: bool)
    requires ValidPick(cfg, pick) && ctx.duration == Some("30")
    requires Key(ctx.platform, UserId(ctx)) in cfg.adminUsers
    ensures var o := Execute(ctx, cfg, pick, dispatched);
      o.reply == Returned(false, "用户 " + Key(ctx.platform, UserId(ctx)) + " 是管理员，无法被禁言") && o.ban == None
  {
    ParseThirty();
    assert RawDuration(ctx) == "30";
    assert DurationVerdict(ctx, cfg).Accepted?;
  }

  /** Under any configuration, a duration that is no number is refused before
      the admin and group checks, with nothing sent to the chat. */
  lemma UnparsableScenario(cfg: Config, pick: nat, dispatched: bool)
    requires ValidPick(cfg, pick)
    ensures Execute(ActionContext("qq", true, Some("g1"), Some("u1"), None, Some("abc"), None), cfg, pick, dispatched)
         == ActionOutcome(Returned(false, "禁言时长格式无效: abc"), [], None, None)
  {
    var ctx := ActionContext("qq", true, Some("g1"), Some("u1"), None, Some("abc"), None);
    ParseIntRejectsForeign("abc", 0);
    UnparsableRefused(ctx, cfg, pick, dispatched);
    InvalidFormatLiteral();
  }

  lemma InvalidFormatLiteral()
    ensures "禁言时长格式无效: " + "abc" == "禁言时长格式无效: abc"
  {
  }

  lemma UnparsableRefused(ctx: ActionContext, cfg: Config, pick: nat, dispatched: bool)
    requires ValidPick(cfg, pick) && ctx.duration.Some? && ctx.duration.value != ""
    requires ParseInt(ctx.duration.value) == None
    ensures Execute(ctx, cfg, pick, dispatched)
         == ActionOutcome(Returned(false, "禁言时长格式无效: " + ctx.duration.value), [], None, None)
  {
    assert RawDuration(ctx) == ctx.duration.value;
    assert RawDuration(ctx) != "" && ParseInt(RawDuration(ctx)).None?;
  }
}

=== FILE: mute_command.dfy ===
/** `MuteCommand.execute`: the `/mute <user> <seconds> [reason]` command typed
    by a chat member. The host calls become fields of the outcome: the texts
    sent to the chat and the `GROUP_BAN` command issued. */
module MuteCommand {
  import opened Options
  import opened Numerals
  import opened Tokens
  import opened Duration
  import opened Permissions
  import opened Templates
  import opened Policy

  /** What the host hands the command: the requester and the raw command text. */
  datatype CommandContext = CommandContext(platform: string, userId: Option<string>, rawText: string)

  /** `execute`'s `(success, message, intercept)` return, whose third part is
      always true, with the host calls it made. */
  datatype CommandOutcome = CommandOutcome(
    success: bool,
    message: string,
    texts: seq<string>,      // send_text calls, in order
    ban: Option<GroupBan>)   // the send_command("GROUP_BAN", ...) call, if made

  const Usage: string := "❌ 命令格式: /mute <用户名> <时长(秒)> [理由]"

  function Requester(ctx: CommandContext): string { ctx.userId.GetOr("unknown") }

  /** The reason: the fourth token alone, or the default. */
  function ReasonOf(tokens: seq<string>): string {
    if |tokens| > 3 then tokens[3] else "管理员操作"
  }

  /** The warning sent when a bound moved the requested duration. */
  function AdjustNotices(adjust: Adjustment, cfg: Config): seq<string> {
    match adjust
    case Kept => []
    case RaisedToMin => ["⚠️ 禁言时长过短，调整为" + IntToString(cfg.minDuration) + "秒"]
    case LoweredToMax => ["⚠️ 禁言时长过长，调整为" + IntToString(cfg.maxDuration) + "秒"]
  }

  /** The command's decision sequence. `pick` is the template `random.choice`
      draws and `dispatched` the host's answer to the `GROUP_BAN` command.
      Requester permission comes before any parsing; the duration before the
      admin check on the target; the message is rendered only after the
      command went through. */
  function Execute(ctx: CommandContext, cfg: Config, pick: nat, dispatched: bool): (o: CommandOutcome)
    requires ValidPick(cfg, pick)
    // 1. a requester outside a non-empty allow-list: refused before the text is read
    ensures UserCheck(cfg.allowedUsers, ctx.platform, Requester(ctx)).Fail? ==>
      o == CommandOutcome(false, "你没有使用禁言命令的权限", ["❌ 你没有使用禁言命令的权限"], None)
    // 2. fewer than three tokens
    ensures UserCheck(cfg.allowedUsers, ctx.platform, Requester(ctx)).Pass? && |Split(ctx.rawText)| < 3 ==>
      o == CommandOutcome(false, "参数不足", [Usage], None)
    // 3. a third token that is not an integer, or is not positive
    ensures UserCheck(cfg.allowedUsers, ctx.platform, Requester(ctx)).Pass? && |Split(ctx.rawText)| >= 3 ==>
      && (ParseInt(Split(ctx.rawText)[2]).None? ==>
            o == CommandOutcome(false, "时长格式错误", ["❌ 禁言时长必须是数字"], None))
      && (ParseInt(Split(ctx.rawText)[2]).Some? && ParseInt(Split(ctx.rawText)[2]).value <= 0 ==>
            o == CommandOutcome(false, "时长无效", ["❌ 禁言时长必须大于0"], None))
    // 4. an admin target (the second token) is never muted; an allowed requester is told why
    ensures |Split(ctx.rawText)| >= 3 && Key(ctx.platform, Split(ctx.rawText)[1]) in cfg.adminUsers ==>
      o.ban == None && !o.success
    ensures var tokens := Split(ctx.rawText);
      UserCheck(cfg.allowedUsers, ctx.platform, Requester(ctx)).Pass? && |tokens| >= 3
      && CheckDuration(tokens[2], cfg.minDuration, cfg.maxDuration).Accepted?
      && Key(ctx.platform, tokens[1]) in cfg.adminUsers ==>
        var refusal := "用户 " + Key(ctx.platform, tokens[1]) + " 是管理员，无法被禁言";
        o == CommandOutcome(false, refusal,
               AdjustNotices(CheckDuration(tokens[2], cfg.minDuration, cfg.maxDuration).adjust, cfg) + ["❌ " + refusal], None)
    // the mute is issued exactly when every check passes
    ensures o.ban.Some? <==>
      && (cfg.allowedUsers == [] || Key(ctx.platform, Requester(ctx)) in cfg.allowedUsers)
      && |Split(ctx.rawText)| >= 3
      && ParseInt(Split(ctx.rawText)[2]).Some? && ParseInt(Split(ctx.rawText)[2]).value > 0
      && Key(ctx.platform, Split(ctx.rawText)[1]) !in cfg.adminUsers
    // it mutes the second token for the third token's value, adjusted, sent as `str` of it
    ensures o.ban.Some? ==>
      var seconds := Clamp(ParseInt(Split(ctx.rawText)[2]).value, cfg.minDuration, cfg.maxDuration);
      && o.ban.value.qqId == Split(ctx.rawText)[1]
      && o.ban.value.duration == IntToString(seconds)
      && ReadInt(o.ban.value.duration) == Some(seconds)
    // success needs the command to go through; only then is a template rendered, after any bound warning
    ensures o.success <==> o.ban.Some? && dispatched && cfg.templates != []
    ensures o.success ==>
      var tokens := Split(ctx.rawText);
      var c := CheckDuration(tokens[2], cfg.minDuration, cfg.maxDuration);
      && o.texts == AdjustNotices(c.adjust, cfg) + [Render(cfg.templates[pick], tokens[1], FormatDuration(c.seconds), ReasonOf(tokens))]
      && o.message == "成功禁言 " + tokens[1] + "，时长 " + FormatDuration(c.seconds)
    // a command the host refused: no message is rendered, only the failure notice
    ensures o.ban.Some? && !dispatched ==>
      && o.message == "发送禁言命令失败"
      && o.texts == AdjustNotices(CheckDuration(Split(ctx.rawText)[2], cfg.minDuration, cfg.maxDuration).adjust, cfg)
                    + ["❌ 发送禁言命令失败"]
  {
    match UserCheck(cfg.allowedUsers, ctx.platform, Requester(ctx))
    case Fail(permissionError) =>
      assert "❌ " + permissionError == "❌ 你没有使用禁言命令的权限";
      CommandOutcome(false, permissionError, ["❌ " + permissionError], None)
    case Pass =>
      var tokens := Split(ctx.rawText);
      if |tokens| < 3 then
        CommandOutcome(false, "参数不足", [Usage], None)
      else
        MuteTarget(ctx.platform, cfg, tokens[1], tokens[2], ReasonOf(tokens), pick, dispatched)
  }

  /** The command after tokenising: validate the duration text, refuse an admin
      target, send `GROUP_BAN`, then render the message. */
  function MuteTarget(platform: string, cfg: Config, target: string, raw: string, reason: string, pick: nat, dispatched: bool): (o: CommandOutcome)
    requires ValidPick(cfg, pick)
    // a duration that is not an integer, or is not positive
    ensures CheckDuration(raw, cfg.minDuration, cfg.maxDuration).Unparsable? ==>
      o == CommandOutcome(false, "时长格式错误", ["❌ 禁言时长必须是数字"], None)
    ensures CheckDuration(raw, cfg.minDuration, cfg.maxDuration).NotPositive? ==>
      o == CommandOutcome(false, "时长无效", ["❌ 禁言时长必须大于0"], None)
    // an admin target: refused after any bound warning
    ensures var c := CheckDuration(raw, cfg.minDuration, cfg.maxDuration);
      var refusal := "用户 " + Key(platform, target) + " 是管理员，无法被禁言";
      c.Accepted? && Key(platform, target) in cfg.adminUsers ==>
        o == CommandOutcome(false, refusal, AdjustNotices(c.adjust, cfg) + ["❌ " + refusal], None)
    ensures o.ban.Some? <==> CheckDuration(raw, cfg.minDuration, cfg.maxDuration).Accepted? && Key(platform, target) !in cfg.adminUsers
    ensures o.ban.Some? ==>
      && o.ban.value.qqId == target
      && o.ban.value.duration == IntToString(CheckDuration(raw, cfg.minDuration, cfg.maxDuration).seconds)
      && ReadInt(o.ban.value.duration) == Some(CheckDuration(raw, cfg.minDuration, cfg.maxDuration).seconds)
    ensures o.success <==> o.ban.Some? && dispatched && cfg.templates != []
    // the message is rendered only once the command went through, after any bound warning
    ensures o.success ==>
      var c := CheckDuration(raw, cfg.minDuration, cfg.maxDuration);
      var timeStr := FormatDuration(c.seconds);
      && o.texts == AdjustNotices(c.adjust, cfg) + [Render(cfg.templates[pick], target, timeStr, reason)]
      && o.message == "成功禁言 " + target + "，时长 " + timeStr
    ensures o.ban.Some? && !dispatched ==>
      && o.message == "发送禁言命令失败"
      && o.texts == AdjustNotices(CheckDuration(raw, cfg.minDuration, cfg.maxDuration).adjust, cfg) + ["❌ 发送禁言命令失败"]
    // an empty template list fails the draw after the command was sent; the handler reports it
    ensures o.ban.Some? && dispatched && cfg.templates == [] ==>
      && o.message == EmptyChoice
      && o.texts == AdjustNotices(CheckDuration(raw, cfg.minDuration, cfg.maxDuration).adjust, cfg) + ["❌ 禁言命令错误: " + EmptyChoice]
  {
    match CheckDuration(raw, cfg.minDuration, cfg.maxDuration)
    case Unparsable =>
      CommandOutcome(false, "时长格式错误", ["❌ 禁言时长必须是数字"], None)
    case NotPositive =>
      CommandOutcome(false, "时长无效", ["❌ 禁言时长必须大于0"], None)
    case Accepted(seconds, adjust) =>
      var notices := AdjustNotices(adjust, cfg);
      match AdminCheck(cfg.adminUsers, target, platform)
      case Fail(adminError) =>
        CommandOutcome(false, adminError, notices + ["❌ " + adminError], None)
      case Pass =>
        var timeStr := FormatDuration(seconds);
        var ban := GroupBan(target, IntToString(seconds));
        ReadIntToString(seconds);
        if !dispatched then
          CommandOutcome(false, "发送禁言命令失败", notices + ["❌ 发送禁言命令失败"], Some(ban))
        else if |cfg.templates| == 0 then
          // the `IndexError` of `random.choice`, caught by the catch-all handler
          CommandOutcome(false, EmptyChoice, notices + ["❌ 禁言命令错误: " + EmptyChoice], Some(ban))
        else
          var message := Render(cfg.templates[pick], target, timeStr, reason);
          CommandOutcome(true, "成功禁言 " + target + "，时长 " + timeStr, notices + [message], Some(ban))
  }

  /** A command line of well-formed tokens separated by single spaces is read as
      those tokens: the second is the target, the third the duration, and the
      fourth, if any, the reason. */
  lemma ExecuteOnTokens(platform: string, userId: Option<string>, ts: seq<string>, cfg: Config, pick: nat, dispatched: bool)
    requires forall i :: 0 <= i < |ts| ==> IsToken(ts[i])
    requires |ts| >= 3 && ValidPick(cfg, pick)
    requires cfg.allowedUsers == [] || Key(platform, userId.GetOr("unknown")) in cfg.allowedUsers
    ensures var o := Execute(CommandContext(platform, userId, JoinSpace(ts)), cfg, pick, dispatched);
      && (o.ban.Some? <==> ParseInt(ts[2]).Some? && ParseInt(ts[2]).value > 0 && Key(platform, ts[1]) !in cfg.adminUsers)
      && (o.ban.Some? ==> o.ban.value.qqId == ts[1])
      && (o.success ==>
            o.texts[|o.texts| - 1] == Render(cfg.templates[pick], ts[1],
              FormatDuration(Clamp(ParseInt(ts[2]).value, cfg.minDuration, cfg.maxDuration)),
              if |ts| > 3 then ts[3] else "管理员操作"))
  {
    SplitJoinSpace(ts);
  }

  /** The reason is the fourth token only: words after it change nothing. */
  lemma TrailingWordsIgnored(platform: string, userId: Option<string>, ts: seq<string>, cfg: Config, pick: nat, dispatched: bool)
    requires forall i :: 0 <= i < |ts| ==> IsToken(ts[i])
    requires |ts| >= 4 && ValidPick(cfg, pick)
    ensures Execute(CommandContext(platform, userId, JoinSpace(ts)), cfg, pick, dispatched)
         == Execute(CommandContext(platform, userId, JoinSpace(ts[..4])), cfg, pick, dispatched)
  {
    var ctx := CommandContext(platform, userId, JoinSpace(ts));
    var short := CommandContext(platform, userId, JoinSpace(ts[..4]));
    SplitJoinSpace(ts);
    SplitJoinSpace(ts[..4]);
    assert ts[..4][1] == ts[1] && ts[..4][2] == ts[2] && ReasonOf(ts[..4]) == ReasonOf(ts);
    ExecuteAfterSplit(ctx, cfg, pick, dispatched);
    ExecuteAfterSplit(short, cfg, pick, dispatched);
  }

  /** The command depends on its text only through the target, duration and
      reason tokens. */
  lemma ExecuteAfterSplit(ctx: CommandContext, cfg: Config, pick: nat, dispatched: bool)
    requires ValidPick(cfg, pick) && |Split(ctx.rawText)| >= 3
    ensures var tokens := Split(ctx.rawText);
      Execute(ctx, cfg, pick, dispatched)
      == if UserCheck(cfg.allowedUsers, ctx.platform, Requester(ctx)).Fail?
         then CommandOutcome(false, "你没有使用禁言命令的权限", ["❌ 你没有使用禁言命令的权限"], None)
         else MuteTarget(ctx.platform, cfg, tokens[1], tokens[2], ReasonOf(tokens), pick, dispatched)
  {
  }

  /** A requester on the allow-list muting a user below the minimum: the
      duration is raised to a minute, with a warning, then the message follows. */
  lemma RaisedDurationScenario()
    ensures Execute(CommandContext("qq", Some("42"), "/mute u1 30"), CommandDefaults().(allowedUsers := ["qq:42"]), 0, true)
         == CommandOutcome(true, "成功禁言 u1，时长 1分钟",
              ["⚠️ 禁言时长过短，调整为60秒", "好的，禁言 u1 1分钟，理由：管理员操作"],
              Some(GroupBan("u1", "60")))
  {
    var cfg := CommandDefaults().(allowedUsers := ["qq:42"]);
    assert cfg.minDuration == 60 && cfg.maxDuration == 2592000 && cfg.adminUsers == [];
    assert |cfg.templates| > 0 && cfg.templates[0] == CommandTemplates[0];
    assert Key("qq", "42") == "qq:42";
    SampleLine();
    ThirtyRaised(cfg.minDuration, cfg.maxDuration);
    RaisedDurationMute(cfg, "30");
  }

  lemma SampleLine()
    ensures Split("/mute u1 30") == ["/mute", "u1", "30"]
  {
    var ts := ["/mute", "u1", "30"];
    assert JoinSpace(ts) == "/mute u1 30" by {
      assert ts[1..] == ["u1", "30"] && ts[1..][1..] == ["30"];
    }
    assert forall i :: 0 <= i < |ts| ==> IsToken(ts[i]);
    SplitJoinSpace(ts);
  }

  lemma RaisedDurationMute(cfg: Config, raw: string)
    requires cfg.minDuration == 60 && cfg.adminUsers == []
    requires |cfg.templates| > 0 && cfg.templates[0] == CommandTemplates[0]
    requires CheckDuration(raw, cfg.minDuration, cfg.maxDuration) == Accepted(60, RaisedToMin)
    ensures MuteTarget("qq", cfg, "u1", raw, "管理员操作", 0, true)
         == CommandOutcome(true, "成功禁言 u1，时长 1分钟",
              ["⚠️ 禁言时长过短，调整为60秒", "好的，禁言 u1 1分钟，理由：管理员操作"],
              Some(GroupBan("u1", "60")))
  {
    MuteTargetPasses("qq", cfg, "u1", raw, "管理员操作", 0);
    var reply := "成功禁言 " + "u1" + "，时长 " + FormatDuration(60);
    var notices := AdjustNotices(RaisedToMin, cfg);
    var message := Render(cfg.templates[0], "u1", FormatDuration(60), "管理员操作");
    assert reply == "成功禁言 u1，时长 1分钟" by { SuccessLine(); }
    assert notices == ["⚠️ 禁言时长过短，调整为60秒"] by { NoticeOfMinimum(cfg); }
    assert message == "好的，禁言 u1 1分钟，理由：管理员操作" by { SampleMessage(); }
    assert IntToString(60) == "60" by { SixtyText(); }
  }

  /** Half a minute under a one-minute minimum is raised to the minimum. */
  lemma ThirtyRaised(lo: int, hi: int)
    requires lo == 60 && hi >= 60
    ensures CheckDuration("30", lo, hi) == Accepted(60, RaisedToMin)
  {
    ParseThirty();
  }

  lemma SuccessLine()
    ensures "成功禁言 " + "u1" + "，时长 " + FormatDuration(60) == "成功禁言 u1，时长 1分钟"
  {
    FormatDurationSamples();
  }

  lemma MuteTargetPasses(platform: string, cfg: Config, target: string, raw: string, reason: string, pick: nat)
    requires ValidPick(cfg, pick) && cfg.templates != []
    requires CheckDuration(raw, cfg.minDuration, cfg.maxDuration).Accepted?
    requires AdminCheck(cfg.adminUsers, target, platform) == Pass
    ensures var c := CheckDuration(raw, cfg.minDuration, cfg.maxDuration);
      MuteTarget(platform, cfg, target, raw, reason, pick, true)
      == CommandOutcome(true, "成功禁言 " + target + "，时长 " + FormatDuration(c.seconds),
           AdjustNotices(c.adjust, cfg) + [Render(cfg.templates[pick], target, FormatDuration(c.seconds), reason)],
           Some(GroupBan(target, IntToString(c.seconds))))
  {
  }

  lemma NoticeOfMinimum(cfg: Config)
    requires cfg.minDuration == 60
    ensures AdjustNotices(RaisedToMin, cfg) == ["⚠️ 禁言时长过短，调整为60秒"]
  {
    assert AdjustNotices(RaisedToMin, cfg) == ["⚠️ 禁言时长过短，调整为" + IntToString(60) + "秒"];
    MinimumNotice();
  }

  lemma MinimumNotice()
    ensures "⚠️ 禁言时长过短，调整为" + IntToString(60) + "秒" == "⚠️ 禁言时长过短，调整为60秒"
  {
    SixtyText();
    NoticeLiteral(IntToString(60));
  }

  lemma NoticeLiteral(n: string)
    requires n == "60"
    ensures "⚠️ 禁言时长过短，调整为" + n + "秒" == "⚠️ 禁言时长过短，调整为60秒"
  {
  }

  lemma SampleMessage()
    ensures Render(CommandTemplates[0], "u1", FormatDuration(60), "管理员操作") == "好的，禁言 u1 1分钟，理由：管理员操作"
  {
    FormatDurationSamples();
    DefaultTemplatesWellFormed(0, "u1", 60, "管理员操作");
    OkayFilled("u1", "1分钟", "管理员操作");
    SampleLiteral();
  }

  lemma SampleLiteral()
    ensures "好的，禁言 " + "u1" + " " + "1分钟" + "，理由：" + "管理员操作" == "好的，禁言 u1 1分钟，理由：管理员操作"
  {
  }
}

=== FILE: numerals.dfy ===
/** Decimal text for integers, in both directions: Python's `str(n)` / f-string
    rendering of an `int`, and the subset of Python's `int(text)` that the plugin
    relies on (surrounding whitespace, an optional sign, ASCII digits). */
module Numerals {
  import opened Options

  /** Python's `str.isspace` / `Py_UNICODE_ISSPACE` set: the characters that
      `str.split()` splits on. */
  predicate IsSpace(c: char) {
    || ('\t' <= c <= '\r')
    || ('\U{1C}' <= c <= '\U{1F}')
    || c == ' '
    || c == '\U{85}'
    || c == '\U{A0}'
    || c == '\U{1680}'
    || ('\U{2000}' <= c <= '\U{200A}')
    || c == '\U{2028}'
    || c == '\U{2029}'
    || c == '\U{202F}'
    || c == '\U{205F}'
    || c == '\U{3000}'
  }

  /** The whitespace `int()` strips from both ends of its argument. CPython first
      turns every non-ASCII whitespace character into a space and then strips
      only `\t`–`\r` and the space, so the separators U+001C–U+001F, which
      `str.split()` does treat as whitespace, stay in place and make the text
      unparsable. */
  predicate IsIntSpace(c: char) {
    IsSpace(c) && !('\U{1C}' <= c <= '\U{1F}')
  }

  predicate IsDigit(c: char) {
    '0' <= c <= '9'
  }

  predicate AllDigits(s: string) {
    forall i :: 0 <= i < |s| ==> IsDigit(s[i])
  }

  predicate NoSpace(s: string) {
    forall i :: 0 <= i < |s| ==> !IsSpace(s[i])
  }

  function DigitChar(d: nat): (c: char)
    requires d < 10
    ensures IsDigit(c) && c as int - '0' as int == d
  {
    ('0' as int + d) as char
  }

  function DigitValue(c: char): nat
    requires IsDigit(c)
  {
    c as int - '0' as int
  }

  /** The value of a string of decimal digits, most significant first. */
  function DigitsValue(ds: string): nat
    requires AllDigits(ds)
  {
    if |ds| == 0 then 0 else DigitsValue(ds[..|ds| - 1]) * 10 + DigitValue(ds[|ds| - 1])
  }

  /** Decimal digits of `n` without leading zeros. */
  function NatToString(n: nat): (r: string)
    ensures |r| > 0 && AllDigits(r)
  {
    if n < 10 then [DigitChar(n)] else NatToString(n / 10) + [DigitChar(n % 10)]
  }

  /** Python's `str(n)` for an `int`: a minus sign for negative values. */
  function IntToString(n: int): (r: string)
    ensures |r| > 0 && NoSpace(r)
    ensures n >= 0 <==> IsDigit(r[0])
  {
    NoSpaceInDigits(NatToString(if n < 0 then -n else n));
    if n < 0 then "-" + NatToString(-n) else NatToString(n)
  }

  lemma NoSpaceInDigits(ds: string)
    requires AllDigits(ds)
    ensures NoSpace(ds)
  {
  }

  /** Removes leading whitespace. */
  function TrimStart(s: string): (r: string)
    ensures |r| <= |s| && r == s[|s| - |r|..]
    ensures |r| > 0 ==> !IsSpace(r[0])
  {
    if |s| > 0 && IsSpace(s[0]) then TrimStart(s[1..]) else s
  }

  /** Removes the leading whitespace `int()` ignores. */
  function StripStart(s: string): (r: string)
    ensures |r| <= |s| && r == s[|s| - |r|..]
    ensures |r| > 0 ==> !IsIntSpace(r[0])
  {
    if |s| > 0 && IsIntSpace(s[0]) then StripStart(s[1..]) else s
  }

  /** Removes the trailing whitespace `int()` ignores. */
  function StripEnd(s: string): (r: string)
    ensures |r| <= |s| && r == s[..|r|]
    ensures |r| > 0 ==> !IsIntSpace(r[|r| - 1])
  {
    if |s| > 0 && IsIntSpace(s[|s| - 1]) then StripEnd(s[..|s| - 1]) else s
  }

  function Strip(s: string): string {
    StripEnd(StripStart(s))
  }

  /** The value of a decimal numeral of any length: surrounding whitespace that
      `int()` strips, an optional sign and ASCII digits. `None` when the text is
      not such a numeral. */
  function ReadInt(s: string): Option<int> {
    var t := Strip(s);
    if |t| > 0 && (t[0] == '+' || t[0] == '-') then
      var ds := t[1..];
      if |ds| > 0 && AllDigits(ds) then
        Some(if t[0] == '-' then -(DigitsValue(ds) as int) else DigitsValue(ds))
      else None
    else if |t| > 0 && AllDigits(t) then Some(DigitsValue(t))
    else None
  }

  /** The default of `sys.get_int_max_str_digits()`: from Python 3.10.7 and 3.11
      on, `int()` refuses a numeral with more digits than this. */
  const MaxStrDigits: nat := 4300

  /** Python's `int(text)` in base 10, restricted to ASCII digits without
      underscores: `None` stands for the `ValueError` it raises, for text that
      is no numeral and for a numeral of more than `MaxStrDigits` digits. */
  function ParseInt(s: string): Option<int> {
    var t := Strip(s);
    if |t| > 0 && (t[0] == '+' || t[0] == '-') then
      var ds := t[1..];
      if |ds| > 0 && AllDigits(ds) && |ds| <= MaxStrDigits then
        Some(if t[0] == '-' then -(DigitsValue(ds) as int) else DigitsValue(ds))
      else None
    else if |t| > 0 && AllDigits(t) && |t| <= MaxStrDigits then Some(DigitsValue(t))
    else None
  }

  /** The digits of `int()`'s argument: whitespace stripped, a sign dropped. */
  function DigitRun(s: string): string {
    var t := Strip(s);
    if |t| > 0 && (t[0] == '+' || t[0] == '-') then t[1..] else t
  }

  /** `int()` reads a numeral as its value unless it has too many digits. */
  lemma ParseIntIsBoundedRead(s: string)
    ensures ParseInt(s) == if |DigitRun(s)| > MaxStrDigits then None else ReadInt(s)
  {
  }

  /** The number of digits `str(n)` writes. */
  function DigitCount(n: int): nat {
    |NatToString(if n < 0 then -n else n)|
  }

  /** The digits `NatToString` produces read back as the number they came from. */
  lemma {:induction false} NatToStringValue(n: nat)
    ensures DigitsValue(NatToString(n)) == n
    decreases n
  {
    var r := NatToString(n);
    if n >= 10 {
      var p := NatToString(n / 10);
      NatToStringValue(n / 10);
      assert r == p + [DigitChar(n % 10)];
      assert r[..|r| - 1] == p;
    }
  }

  /** Text without surrounding whitespace is left alone by `int()`'s stripping. */
  lemma StripUnspaced(s: string)
    requires |s| > 0 && !IsIntSpace(s[0]) && !IsIntSpace(s[|s| - 1])
    ensures Strip(s) == s
  {
  }

  /** A bare run of digits reads as its value, and all of it counts as digits. */
  lemma ReadIntDigits(ds: string)
    requires |ds| > 0 && AllDigits(ds)
    ensures ReadInt(ds) == Some(DigitsValue(ds))
    ensures DigitRun(ds) == ds
  {
    NoSpaceInDigits(ds);
    StripUnspaced(ds);
  }

  /** A minus sign followed by a run of digits reads as the negated value; the
      sign does not count as a digit. */
  lemma ReadIntNegative(ds: string)
    requires |ds| > 0 && AllDigits(ds)
    ensures ReadInt("-" + ds) == Some(-(DigitsValue(ds) as int))
    ensures DigitRun("-" + ds) == ds
  {
    var r := "-" + ds;
    NoSpaceInDigits(ds);
    assert r[|r| - 1] == ds[|ds| - 1];
    StripUnspaced(r);
    assert r[1..] == ds;
  }

  /** `str(n)` is a numeral whose value is `n`, for every integer, with exactly
      `DigitCount(n)` digits. */
  lemma ReadIntToString(n: int)
    ensures ReadInt(IntToString(n)) == Some(n)
    ensures |DigitRun(IntToString(n))| == DigitCount(n)
  {
    var ds := NatToString(if n < 0 then -n else n);
    NatToStringValue(if n < 0 then -n else n);
    if n < 0 {
      assert IntToString(n) == "-" + ds;
      ReadIntNegative(ds);
    } else {
      assert IntToString(n) == ds;
      ReadIntDigits(ds);
    }
  }

  /** Round trip: Python's `int(str(n)) == n` for every integer of at most
      4300 digits; past the limit `int()` raises. */
  lemma ParseIntToString(n: int)
    ensures DigitCount(n) <= MaxStrDigits ==> ParseInt(IntToString(n)) == Some(n)
    ensures DigitCount(n) > MaxStrDigits ==> ParseInt(IntToString(n)) == None
  {
    ReadIntToString(n);
    ParseIntIsBoundedRead(IntToString(n));
  }

  /** A run of more than 4300 digits is a numeral, yet `int()` refuses it. */
  lemma ParseIntTooLong(ds: string)
    requires |ds| > MaxStrDigits && AllDigits(ds)
    ensures ReadInt(ds) == Some(DigitsValue(ds))
    ensures ParseInt(ds) == None
  {
    ReadIntDigits(ds);
    ParseIntIsBoundedRead(ds);
  }

  /** `str` is injective on integers: distinct values render differently. */
  lemma IntToStringInjective(m: int, n: int)
    requires IntToString(m) == IntToString(n)
    ensures m == n
  {
    ReadIntToString(m);
    ReadIntToString(n);
  }

  /** Text holding a character that is neither a digit, a sign nor whitespace
      `int()` strips is never an integer literal; this includes the separators
      U+001C–U+001F. */
  lemma ParseIntRejectsForeign(s: string, i: int)
    requires 0 <= i < |s|
    requires !IsDigit(s[i]) && !IsIntSpace(s[i]) && s[i] != '+' && s[i] != '-'
    ensures ReadInt(s) == None && ParseInt(s) == None
  {
    if ReadInt(s).Some? {
      // every character `int()` does not strip survives stripping
      assert s[i] in Strip(s) by {
        StripKeeps(s, i);
      }
      assert false;
    }
    ParseIntIsBoundedRead(s);
  }

  /** A character `int()` does not strip is still present after stripping. */
  lemma StripKeeps(s: string, i: int)
    requires 0 <= i < |s| && !IsIntSpace(s[i])
    ensures s[i] in Strip(s)
  {
    StripStartKeeps(s, i);
    var a := StripStart(s);
    var j := i - (|s| - |a|);
    StripEndKeeps(a, j);
  }

  lemma {:induction false} StripStartKeeps(s: string, i: int)
    requires 0 <= i < |s| && !IsIntSpace(s[i])
    ensures |s| - |StripStart(s)| <= i && StripStart(s)[i - (|s| - |StripStart(s)|)] == s[i]
    decreases |s|
  {
    if |s| > 0 && IsIntSpace(s[0]) {
      StripStartKeeps(s[1..], i - 1);
    }
  }

  lemma {:induction false} StripEndKeeps(s: string, i: int)
    requires 0 <= i < |s| && !IsIntSpace(s[i])
    ensures i < |StripEnd(s)| && StripEnd(s)[i] == s[i]
    decreases |s|
  {
    if |s| > 0 && IsIntSpace(s[|s| - 1]) {
      StripEndKeeps(s[..|s| - 1], i);
    }
  }

  /** A duration as typed parses to its value. */
  lemma ParseThirty()
    ensures ParseInt("30") == Some(30)
  {
    assert "30"[..1] == "3" && "3"[..0] == "";
    assert DigitsValue("30") == 30;
    ReadIntDigits("30");
    ParseIntIsBoundedRead("30");
  }

  /** The default minimum renders as its digits. */
  lemma SixtyText()
    ensures IntToString(60) == "60"
  {
    assert NatToString(60) == NatToString(6) + [DigitChar(0)];
  }
}

=== FILE: options.dfy ===
/** The optional-value type shared by the model: an attribute the host may not
    have set, a key an action's data may not carry, a parse that may fail. */
module Options {

  datatype Option<+T> = None | Some(value: T) {

    /** The value, or `default` when it is absent (Python's `getattr(obj, name, default)`
        and `dict.get(key, default)`). */
    function GetOr(default: T): T {
      match this
      case Some(v) => v
      case None => default
    }
  }
}

=== FILE: permissions.dfy ===
/** The permission checks of both components. Users and groups are identified by
    `"platform:id"` keys matched exactly against configured lists. */
module Permissions {

  /** The result of one check: pass, or fail with the message the host shows. */
  datatype Check = Pass | Fail(message: string)

  function Key(platform: string, id: string): string {
    platform + ":" + id
  }

  /** The early-exit linear scan both components use over a configured list. */
  function Contains(xs: seq<string>, x: string): (r: bool)
    ensures r <==> x in xs
  {
    if |xs| == 0 then false
    else if xs[0] == x then true
    else Contains(xs[1..], x)
  }

  /** `_check_admin_permission` (identical in both components): fails exactly
      when the target's key is listed among the admins; an empty list protects
      nobody. */
  function AdminCheck(admins: seq<string>, userId: string, platform: string): (r: Check)
    ensures r.Fail? <==> Key(platform, userId) in admins
    ensures admins == [] ==> r == Pass
    ensures r.Fail? ==> r.message == "用户 " + Key(platform, userId) + " 是管理员，无法被禁言"
  {
    if |admins| == 0 then Pass
    else
      var key := Key(platform, userId);
      if Contains(admins, key) then Fail("用户 " + key + " 是管理员，无法被禁言") else Pass
  }

  /** `MuteAction._check_group_permission`: only group chats qualify; an empty
      allow-list admits every group, otherwise the group's key must be listed. */
  function GroupCheck(isGroup: bool, allowedGroups: seq<string>, platform: string, groupId: string): (r: Check)
    ensures r.Pass? <==> isGroup && (allowedGroups == [] || Key(platform, groupId) in allowedGroups)
    ensures !isGroup ==> r == Fail("禁言动作只能在群聊中使用")
    ensures isGroup && r.Fail? ==> r == Fail("当前群组没有使用禁言动作的权限")
  {
    if !isGroup then Fail("禁言动作只能在群聊中使用")
    else if |allowedGroups| == 0 then Pass
    else if Contains(allowedGroups, Key(platform, groupId)) then Pass
    else Fail("当前群组没有使用禁言动作的权限")
  }

  /** `MuteCommand._check_user_permission`: an empty allow-list admits every
      user, otherwise the requester's key must be listed. */
  function UserCheck(allowedUsers: seq<string>, platform: string, userId: string): (r: Check)
    ensures r.Pass? <==> allowedUsers == [] || Key(platform, userId) in allowedUsers
    ensures r.Fail? ==> r == Fail("你没有使用禁言命令的权限")
  {
    if |allowedUsers| == 0 then Pass
    else if Contains(allowedUsers, Key(platform, userId)) then Pass
    else Fail("你没有使用禁言命令的权限")
  }

  /** The two allow-lists follow one rule: in a group chat, a group passes the
      group list exactly when a user with the same id would pass the same list
      used as the user list. */
  lemma AllowListsAgree(list: seq<string>, platform: string, id: string)
    ensures GroupCheck(true, list, platform, id).Pass? == UserCheck(list, platform, id).Pass?
    ensures UserCheck([], platform, id).Pass? && GroupCheck(true, [], platform, id).Pass?
  {
  }
}

=== FILE: policy.dfy ===
/** The configuration both components read through `get_config`, with the
    defaults written at the call sites, and the default message templates. */
module Policy {
  import opened Numerals
  import opened Duration
  import opened Templates

  /** The `permissions.*` and `mute.*` configuration values. Lists are kept in
      configuration order; membership is all that is ever asked of them. */
  datatype Config = Config(
    adminUsers: seq<string>,     // permissions.admin_users
    allowedUsers: seq<string>,   // permissions.allowed_users
    allowedGroups: seq<string>,  // permissions.allowed_groups
    minDuration: int,            // mute.min_duration
    maxDuration: int,            // mute.max_duration
    templates: seq<string>)      // mute.templates

  /** The arguments of the `GROUP_BAN` command sent to the host: the user to
      mute and the number of seconds, both as text. */
  datatype GroupBan = GroupBan(qqId: string, duration: string)

  /** The message of the `IndexError` that `random.choice` raises on an empty list. */
  const EmptyChoice: string := "Cannot choose from an empty sequence"

  const DefaultMinDuration: int := 60
  const DefaultMaxDuration: int := 2592000

  /** The template the random draw picks: `random.choice` returns one element
      of a non-empty list, so the draw is an index into it. An empty list has
      no valid index; the draw then raises and the index is irrelevant. */
  predicate ValidPick(cfg: Config, pick: nat) {
    cfg.templates == [] || pick < |cfg.templates|
  }

  /** The action's default templates as the code spells them. */
  const ActionTemplatesAsWritten: seq<string> := [
    "好的，禁言 {target} {duration}，理由：{reason}",
    "出于理由：{reason}，我将对 {target} 无情捂嘴 {duration} 秒",
    "收到，对 {target} 执行禁言 {duration}，因为{reason}"
  ]

  /** The action's default templates with the stray " 秒" after `{duration}`
      dropped: the duration is already rendered with its unit. No default
      uses this list; it is the repair the second template needs. */
  const ActionTemplates: seq<string> := [
    "好的，禁言 {target} {duration}，理由：{reason}",
    "出于理由：{reason}，我将对 {target} 无情捂嘴 {duration}",
    "收到，对 {target} 执行禁言 {duration}，因为{reason}"
  ]

  /** The command's default templates. */
  const CommandTemplates: seq<string> := [
    "好的，禁言 {target} {duration}，理由：{reason}",
    "收到，对 {target} 执行禁言 {duration}，因为{reason}"
  ]

  const OkayPieces: seq<Piece> :=
    [Text("好的，禁言 "), TargetField, Text(" "), DurationField, Text("，理由："), ReasonField]
  const GaggedPiecesAsWritten: seq<Piece> :=
    [Text("出于理由："), ReasonField, Text("，我将对 "), TargetField, Text(" 无情捂嘴 "), DurationField, Text(" 秒")]
  const GaggedPieces: seq<Piece> :=
    [Text("出于理由："), ReasonField, Text("，我将对 "), TargetField, Text(" 无情捂嘴 "), DurationField]
  const ReceivedPieces: seq<Piece> :=
    [Text("收到，对 "), TargetField, Text(" 执行禁言 "), DurationField, Text("，因为"), ReasonField]

  /** The configuration an action sees when nothing is configured: the
      templates are the call site's, as written. */
  function ActionDefaults(): Config {
    Config([], [], [], DefaultMinDuration, DefaultMaxDuration, ActionTemplatesAsWritten)
  }

  /** The configuration a command sees when nothing is configured. */
  function CommandDefaults(): Config {
    Config([], [], [], DefaultMinDuration, DefaultMaxDuration, CommandTemplates)
  }

  /** Text that opens with a unit word, after any spaces. */
  predicate StartsWithUnit(s: string) {
    exists u :: UnitWord(u) <= TrimStart(s)
  }

  /** A template that writes a unit right after the duration field, which is
      already rendered with its own unit. */
  predicate RepeatsUnit(ps: seq<Piece>) {
    exists i :: 0 <= i < |ps| - 1 && ps[i] == DurationField && ps[i + 1].Text? && StartsWithUnit(ps[i + 1].s)
  }

  /** The text a single piece spells. */
  function PieceText(p: Piece): string {
    Spell([p])
  }

  lemma {:induction false} SpellCons(ps: seq<Piece>)
    requires |ps| > 0
    ensures Spell(ps) == PieceText(ps[0]) + Spell(ps[1..])
  {
    assert Spell([ps[0]]) == PieceText(ps[0]);
  }

  lemma {:induction false} FillCons(ps: seq<Piece>, target: string, duration: string, reason: string)
    requires |ps| > 0
    ensures Fill(ps, target, duration, reason)
         == Fill([ps[0]], target, duration, reason) + Fill(ps[1..], target, duration, reason)
  {
    assert Fill([ps[0]], target, duration, reason) + "" == Fill([ps[0]], target, duration, reason);
  }

  /** Text whose first character is neither a space nor the first letter of a
      unit word does not open with a unit. */
  lemma NoUnitAtFront(s: string)
    requires |s| > 0 && !IsSpace(s[0]) && s[0] !in "秒分小天"
    ensures !StartsWithUnit(s)
  {
    assert TrimStart(s) == s;
  }

  lemma OkayParts()
    ensures Spell(OkayPieces) == "好的，禁言 " + ("{target}" + (" " + ("{duration}" + ("，理由：" + "{reason}"))))
  {
    var ps := OkayPieces;
    assert ps[6..] == [];
    SpellCons(ps[5..]); assert Spell(ps[5..]) == "{reason}";
    SpellCons(ps[4..]); assert Spell(ps[4..]) == "，理由：" + "{reason}";
    SpellCons(ps[3..]); assert Spell(ps[3..]) == "{duration}" + ("，理由：" + "{reason}");
    SpellCons(ps[2..]); assert Spell(ps[2..]) == " " + ("{duration}" + ("，理由：" + "{reason}"));
    SpellCons(ps[1..]); assert Spell(ps[1..]) == "{target}" + (" " + ("{duration}" + ("，理由：" + "{reason}")));
    SpellCons(ps);
  }

  lemma OkayLiteral()
    ensures "好的，禁言 " + ("{target}" + (" " + ("{duration}" + ("，理由：" + "{reason}")))) == ActionTemplates[0]
  {
  }

  lemma OkaySpelled()
    ensures ActionTemplates[0] == Spell(OkayPieces)
  {
    OkayParts();
    OkayLiteral();
  }

  lemma OkayBraces()
    ensures WellFormed(OkayPieces)
  {
  }

  lemma OkayUnits()
    ensures !RepeatsUnit(OkayPieces)
  {
    var ps := OkayPieces;
    assert forall i :: 0 <= i < |ps| - 1 && ps[i] == DurationField ==> i == 3;
    NoUnitAtFront(ps[4].s);
  }

  lemma OkayShape()
    ensures WellFormed(OkayPieces) && !RepeatsUnit(OkayPieces)
  {
    OkayBraces();
    OkayUnits();
  }

  lemma GaggedParts()
    ensures Spell(GaggedPieces) == "出于理由：" + ("{reason}" + ("，我将对 " + ("{target}" + (" 无情捂嘴 " + "{duration}"))))
  {
    var ps := GaggedPieces;
    assert ps[6..] == [];
    SpellCons(ps[5..]); assert Spell(ps[5..]) == "{duration}";
    SpellCons(ps[4..]); assert Spell(ps[4..]) == " 无情捂嘴 " + "{duration}";
    SpellCons(ps[3..]); assert Spell(ps[3..]) == "{target}" + (" 无情捂嘴 " + "{duration}");
    SpellCons(ps[2..]); assert Spell(ps[2..]) == "，我将对 " + ("{target}" + (" 无情捂嘴 " + "{duration}"));
    SpellCons(ps[1..]); assert Spell(ps[1..]) == "{reason}" + ("，我将对 " + ("{target}" + (" 无情捂嘴 " + "{duration}")));
    SpellCons(ps);
  }

  lemma GaggedLiteral()
    ensures "出于理由：" + ("{reason}" + ("，我将对 " + ("{target}" + (" 无情捂嘴 " + "{duration}")))) == ActionTemplates[1]
  {
  }

  lemma GaggedSpelled()
    ensures ActionTemplates[1] == Spell(GaggedPieces)
  {
    GaggedParts();
    GaggedLiteral();
  }

  lemma GaggedBraces()
    ensures WellFormed(GaggedPieces)
  {
  }

  lemma GaggedUnits()
    ensures !RepeatsUnit(GaggedPieces)
  {
    var ps := GaggedPieces;
    assert forall i :: 0 <= i < |ps| - 1 ==> ps[i] != DurationField;
  }

  lemma GaggedShape()
    ensures WellFormed(GaggedPieces) && !RepeatsUnit(GaggedPieces)
  {
    GaggedBraces();
    GaggedUnits();
  }

  lemma ReceivedParts()
    ensures Spell(ReceivedPieces) == "收到，对 " + ("{target}" + (" 执行禁言 " + ("{duration}" + ("，因为" + "{reason}"))))
  {
    var ps := ReceivedPieces;
    assert ps[6..] == [];
    SpellCons(ps[5..]); assert Spell(ps[5..]) == "{reason}";
    SpellCons(ps[4..]); assert Spell(ps[4..]) == "，因为" + "{reason}";
    SpellCons(ps[3..]); assert Spell(ps[3..]) == "{duration}" + ("，因为" + "{reason}");
    SpellCons(ps[2..]); assert Spell(ps[2..]) == " 执行禁言 " + ("{duration}" + ("，因为" + "{reason}"));
    SpellCons(ps[1..]); assert Spell(ps[1..]) == "{target}" + (" 执行禁言 " + ("{duration}" + ("，因为" + "{reason}")));
    SpellCons(ps);
  }

  lemma ReceivedLiteral()
    ensures "收到，对 " + ("{target}" + (" 执行禁言 " + ("{duration}" + ("，因为" + "{reason}")))) == ActionTemplates[2]
  {
  }

  lemma ReceivedSpelled()
    ensures ActionTemplates[2] == Spell(ReceivedPieces)
  {
    ReceivedParts();
    ReceivedLiteral();
  }

  lemma ReceivedBraces()
    ensures WellFormed(ReceivedPieces)
  {
  }

  lemma ReceivedUnits()
    ensures !RepeatsUnit(ReceivedPieces)
  {
    var ps := ReceivedPieces;
    assert forall i :: 0 <= i < |ps| - 1 && ps[i] == DurationField ==> i == 3;
    NoUnitAtFront(ps[4].s);
  }

  lemma ReceivedShape()
    ensures WellFormed(ReceivedPieces) && !RepeatsUnit(ReceivedPieces)
  {
    ReceivedBraces();
    ReceivedUnits();
  }

  lemma GaggedAsWrittenParts()
    ensures Spell(GaggedPiecesAsWritten) == "出于理由：" + ("{reason}" + ("，我将对 " + ("{target}" + (" 无情捂嘴 " + ("{duration}" + " 秒")))))
  {
    var ps := GaggedPiecesAsWritten;
    assert ps[7..] == [];
    SpellCons(ps[6..]); assert Spell(ps[6..]) == " 秒";
    SpellCons(ps[5..]); assert Spell(ps[5..]) == "{duration}" + " 秒";
    SpellCons(ps[4..]); assert Spell(ps[4..]) == " 无情捂嘴 " + ("{duration}" + " 秒");
    SpellCons(ps[3..]); assert Spell(ps[3..]) == "{target}" + (" 无情捂嘴 " + ("{duration}" + " 秒"));
    SpellCons(ps[2..]); assert Spell(ps[2..]) == "，我将对 " + ("{target}" + (" 无情捂嘴 " + ("{duration}" + " 秒")));
    SpellCons(ps[1..]); assert Spell(ps[1..]) == "{reason}" + ("，我将对 " + ("{target}" + (" 无情捂嘴 " + ("{duration}" + " 秒"))));
    SpellCons(ps);
  }

  lemma GaggedAsWrittenLiteral()
    ensures "出于理由：" + ("{reason}" + ("，我将对 " + ("{target}" + (" 无情捂嘴 " + ("{duration}" + " 秒"))))) == ActionTemplatesAsWritten[1]
  {
  }

  lemma GaggedAsWrittenSpelled()
    ensures ActionTemplatesAsWritten[1] == Spell(GaggedPiecesAsWritten)
  {
    GaggedAsWrittenParts();
    GaggedAsWrittenLiteral();
  }

  lemma SecondsAfterSpace()
    ensures StartsWithUnit(" 秒")
  {
    TrimLeadingSpace(' ', "秒");
    assert " 秒" == [' '] + "秒";
    assert UnitWord(Second) <= TrimStart(" 秒");
  }

  /** A leading space is dropped before a non-space character. */
  lemma TrimLeadingSpace(c: char, s: string)
    requires IsSpace(c) && |s| > 0 && !IsSpace(s[0])
    ensures TrimStart([c] + s) == s
  {
    assert ([c] + s)[1..] == s;
  }

  lemma GaggedAsWrittenBraces()
    ensures WellFormed(GaggedPiecesAsWritten)
  {
  }

  lemma GaggedAsWrittenShape()
    ensures WellFormed(GaggedPiecesAsWritten) && RepeatsUnit(GaggedPiecesAsWritten)
  {
    GaggedAsWrittenBraces();
    var ps := GaggedPiecesAsWritten;
    SecondsAfterSpace();
    assert ps[5] == DurationField && ps[6] == Text(" 秒");
    assert 0 <= 5 < |ps| - 1 && ps[5] == DurationField && ps[6].Text? && StartsWithUnit(ps[6].s);
  }

  lemma GaggedAsWrittenFilled()
    ensures Fill(GaggedPiecesAsWritten, "u1", "1分钟", "刷屏") == "出于理由：刷屏，我将对 u1 无情捂嘴 1分钟 秒"
  {
    var ps := GaggedPiecesAsWritten;
    var (t, d, r) := ("u1", "1分钟", "刷屏");
    assert ps[7..] == [];
    FillCons(ps[6..], t, d, r); assert Fill(ps[6..], t, d, r) == " 秒";
    FillCons(ps[5..], t, d, r); assert Fill(ps[5..], t, d, r) == d + " 秒";
    FillCons(ps[4..], t, d, r); assert Fill(ps[4..], t, d, r) == " 无情捂嘴 " + (d + " 秒");
    FillCons(ps[3..], t, d, r); assert Fill(ps[3..], t, d, r) == t + (" 无情捂嘴 " + (d + " 秒"));
    FillCons(ps[2..], t, d, r); assert Fill(ps[2..], t, d, r) == "，我将对 " + (t + (" 无情捂嘴 " + (d + " 秒")));
    FillCons(ps[1..], t, d, r); assert Fill(ps[1..], t, d, r) == r + ("，我将对 " + (t + (" 无情捂嘴 " + (d + " 秒"))));
    FillCons(ps, t, d, r);
  }

  /** As written, the second default action template names a unit twice: it
      puts " 秒" after a duration that is already rendered with its unit, so a
      one-minute mute reads "... 无情捂嘴 1分钟 秒". */
  lemma ActionTemplateRepeatsUnit()
    ensures ActionTemplatesAsWritten[1] == Spell(GaggedPiecesAsWritten)
    ensures WellFormed(GaggedPiecesAsWritten) && RepeatsUnit(GaggedPiecesAsWritten)
    ensures Render(ActionTemplatesAsWritten[1], "u1", FormatDuration(60), "刷屏")
         == "出于理由：刷屏，我将对 u1 无情捂嘴 1分钟 秒"
  {
    GaggedAsWrittenSpelled();
    GaggedAsWrittenShape();
    FormatDurationSamples();
    RenderSpell(GaggedPiecesAsWritten, "u1", FormatDuration(60), "刷屏");
    GaggedAsWrittenFilled();
  }

  lemma OkayFilled(t: string, d: string, r: string)
    ensures Fill(OkayPieces, t, d, r) == "好的，禁言 " + t + " " + d + "，理由：" + r
  {
    var ps := OkayPieces;
    assert ps[6..] == [];
    FillCons(ps[5..], t, d, r); assert Fill(ps[5..], t, d, r) == r;
    FillCons(ps[4..], t, d, r); assert Fill(ps[4..], t, d, r) == "，理由：" + r;
    FillCons(ps[3..], t, d, r); assert Fill(ps[3..], t, d, r) == d + ("，理由：" + r);
    FillCons(ps[2..], t, d, r); assert Fill(ps[2..], t, d, r) == " " + (d + ("，理由：" + r));
    FillCons(ps[1..], t, d, r); assert Fill(ps[1..], t, d, r) == t + (" " + (d + ("，理由：" + r)));
    FillCons(ps, t, d, r);
  }

  lemma GaggedFilled(t: string, d: string, r: string)
    ensures Fill(GaggedPieces, t, d, r) == "出于理由：" + r + "，我将对 " + t + " 无情捂嘴 " + d
  {
    var ps := GaggedPieces;
    assert ps[6..] == [];
    FillCons(ps[5..], t, d, r); assert Fill(ps[5..], t, d, r) == d;
    FillCons(ps[4..], t, d, r); assert Fill(ps[4..], t, d, r) == " 无情捂嘴 " + d;
    FillCons(ps[3..], t, d, r); assert Fill(ps[3..], t, d, r) == t + (" 无情捂嘴 " + d);
    FillCons(ps[2..], t, d, r); assert Fill(ps[2..], t, d, r) == "，我将对 " + (t + (" 无情捂嘴 " + d));
    FillCons(ps[1..], t, d, r); assert Fill(ps[1..], t, d, r) == r + ("，我将对 " + (t + (" 无情捂嘴 " + d)));
    FillCons(ps, t, d, r);
  }

  /** Without the stray " 秒", the second default action template is built
      from brace-free text and the three fields, never writes a unit after the
      duration, and its pieces end with the duration itself. */
  lemma ActionTemplateCorrected(target: string, duration: string, reason: string)
    ensures ActionTemplates[1] == Spell(GaggedPieces)
    ensures WellFormed(GaggedPieces) && !RepeatsUnit(GaggedPieces)
    ensures Fill(GaggedPieces, target, duration, reason)
         == "出于理由：" + reason + "，我将对 " + target + " 无情捂嘴 " + duration
  {
    GaggedSpelled();
    GaggedShape();
    GaggedFilled(target, duration, reason);
  }

  /** The corrected template's message ends with the rendered duration, which
      carries its unit once: a one-minute mute reads "... 无情捂嘴 1分钟". */
  lemma CorrectedTemplateRenders(target: string, duration: string, reason: string)
    ensures Render(ActionTemplates[1], target, duration, reason)
         == "出于理由：" + reason + "，我将对 " + target + " 无情捂嘴 " + duration
  {
    ActionTemplateCorrected(target, duration, reason);
    RenderSpell(GaggedPieces, target, duration, reason);
  }

  /** The repair touches only the second template, and only by dropping its
      trailing " 秒". */
  lemma CorrectionDropsSuffix()
    ensures ActionTemplatesAsWritten[0] == ActionTemplates[0]
    ensures ActionTemplatesAsWritten[1] == ActionTemplates[1] + " 秒"
    ensures ActionTemplatesAsWritten[2] == ActionTemplates[2]
  {
  }

  /** The pieces of each default action template, in order. */
  const ActionPieces: seq<seq<Piece>> := [OkayPieces, GaggedPieces, ReceivedPieces]

  /** Every default action template, as corrected, is built from brace-free
      text and the three fields, never follows the duration with a unit, and so
      renders to its pieces with each field replaced. The command's defaults are
      two of the action's. */
  lemma DefaultTemplatesWellFormed(i: nat, target: string, seconds: int, reason: string)
    requires i < |ActionTemplates|
    ensures ActionTemplates[i] == Spell(ActionPieces[i])
    ensures WellFormed(ActionPieces[i]) && !RepeatsUnit(ActionPieces[i])
    ensures Render(ActionTemplates[i], target, FormatDuration(seconds), reason)
         == Fill(ActionPieces[i], target, FormatDuration(seconds), reason)
    ensures CommandTemplates == [ActionTemplates[0], ActionTemplates[2]]
  {
    var ps := ActionPieces[i];
    if i == 0 {
      OkaySpelled(); OkayShape();
    } else if i == 1 {
      GaggedSpelled(); GaggedShape();
    } else {
      ReceivedSpelled(); ReceivedShape();
    }
    RenderSpell(ps, target, FormatDuration(seconds), reason);
  }
}

=== FILE: templates.dfy ===
/** Message templates: `template.format(target=..., duration=..., reason=...)`
    restricted to the three named fields the plugin supplies. */
module Templates {

  /** Fills every `{target}`, `{duration}` and `{reason}` field of `t`, scanning
      left to right; every other character is copied. */
  function Render(t: string, target: string, duration: string, reason: string): string
    decreases |t|
  {
    if |t| == 0 then ""
    else if "{target}" <= t then target + Render(t[8..], target, duration, reason)
    else if "{duration}" <= t then duration + Render(t[10..], target, duration, reason)
    else if "{reason}" <= t then reason + Render(t[8..], target, duration, reason)
    else [t[0]] + Render(t[1..], target, duration, reason)
  }

  /** A template viewed as literal text interleaved with the three fields: an
      independent description of what rendering must produce. */
  datatype Piece = Text(s: string) | TargetField | DurationField | ReasonField

  predicate BraceFree(s: string) {
    forall i :: 0 <= i < |s| ==> s[i] != '{' && s[i] != '}'
  }

  /** The pieces are what `str.format` reads as literal text and the three
      named replacement fields. */
  predicate WellFormed(ps: seq<Piece>) {
    forall i :: 0 <= i < |ps| ==> (ps[i].Text? ==> BraceFree(ps[i].s))
  }

  /** The template text that spells out a list of pieces. */
  function Spell(ps: seq<Piece>): string {
    if |ps| == 0 then ""
    else
      (match ps[0]
       case Text(s) => s
       case TargetField => "{target}"
       case DurationField => "{duration}"
       case ReasonField => "{reason}") + Spell(ps[1..])
  }

  /** The message a list of pieces stands for: literal text kept, each field
      replaced by its value. */
  function Fill(ps: seq<Piece>, target: string, duration: string, reason: string): string {
    if |ps| == 0 then ""
    else
      (match ps[0]
       case Text(s) => s
       case TargetField => target
       case DurationField => duration
       case ReasonField => reason) + Fill(ps[1..], target, duration, reason)
  }

  /** Literal text without braces passes through rendering unchanged. */
  lemma {:induction false} RenderText(s: string, rest: string, target: string, duration: string, reason: string)
    requires BraceFree(s)
    ensures Render(s + rest, target, duration, reason) == s + Render(rest, target, duration, reason)
    decreases |s|
  {
    if |s| == 0 {
      assert s + rest == rest;
    } else {
      var t := s + rest;
      assert t[0] == s[0];
      RenderPlain(t, target, duration, reason);
      assert t[1..] == s[1..] + rest;
      RenderText(s[1..], rest, target, duration, reason);
      assert s == [s[0]] + s[1..];
    }
  }

  /** A character other than `{` is copied as it is. */
  lemma RenderPlain(t: string, target: string, duration: string, reason: string)
    requires |t| > 0 && t[0] != '{'
    ensures Render(t, target, duration, reason) == [t[0]] + Render(t[1..], target, duration, reason)
  {
    assert !("{target}" <= t) by { assert "{target}"[0] == '{'; }
    assert !("{duration}" <= t) by { assert "{duration}"[0] == '{'; }
    assert !("{reason}" <= t) by { assert "{reason}"[0] == '{'; }
  }

  /** A replacement field at the front of a template is replaced by its value. */
  lemma RenderField(p: Piece, rest: string, target: string, duration: string, reason: string)
    requires !p.Text?
    ensures Render(Spell([p]) + rest, target, duration, reason)
         == Fill([p], target, duration, reason) + Render(rest, target, duration, reason)
  {
    var t := Spell([p]) + rest;
    match p
    case TargetField =>
      assert Spell([p]) == "{target}";
      assert "{target}" <= t;
      assert t[8..] == rest;
    case DurationField =>
      assert Spell([p]) == "{duration}";
      assert t[1] == 'd';
      assert !("{target}" <= t) by { assert "{target}"[1] == 't'; }
      assert "{duration}" <= t;
      assert t[10..] == rest;
    case ReasonField =>
      assert Spell([p]) == "{reason}";
      assert t[1] == 'r';
      assert !("{target}" <= t) by { assert "{target}"[1] == 't'; }
      assert !("{duration}" <= t) by { assert "{duration}"[1] == 'd'; }
      assert "{reason}" <= t;
      assert t[8..] == rest;
  }

  /** Rendering the text of a well-formed template yields the message its pieces
      describe: every field replaced by the given target, duration and reason,
      all literal text kept. */
  lemma {:induction false} RenderSpell(ps: seq<Piece>, target: string, duration: string, reason: string)
    requires WellFormed(ps)
    ensures Render(Spell(ps), target, duration, reason) == Fill(ps, target, duration, reason)
    decreases |ps|
  {
    if |ps| > 0 {
      var rest := Spell(ps[1..]);
      assert Spell(ps) == Spell([ps[0]]) + rest;
      assert Fill(ps, target, duration, reason)
          == Fill([ps[0]], target, duration, reason) + Fill(ps[1..], target, duration, reason);
      RenderSpell(ps[1..], target, duration, reason);
      if ps[0].Text? {
        RenderText(ps[0].s, rest, target, duration, reason);
      } else {
        RenderField(ps[0], rest, target, duration, reason);
      }
    }
  }
}

=== FILE: tokens.dfy ===
/** Python's `str.split()` with no separator: the command path's tokeniser. */
module Tokens {
  import opened Numerals

  /** The longest prefix of `s` free of whitespace. */
  function Word(s: string): (w: string)
    ensures |w| <= |s| && w == s[..|w|] && NoSpace(w)
    ensures |w| < |s| ==> IsSpace(s[|w|])
  {
    if |s| == 0 || IsSpace(s[0]) then "" else [s[0]] + Word(s[1..])
  }

  /** Splits on runs of whitespace, dropping leading and trailing whitespace,
      so that no token is empty. */
  function Split(s: string): seq<string>
    decreases |s|
  {
    if |s| == 0 then []
    else if IsSpace(s[0]) then Split(s[1..])
    else
      var w := Word(s);
      [w] + Split(s[|w|..])
  }

  /** A token as `str.split()` yields it: non-empty and free of whitespace. */
  predicate IsToken(t: string) {
    |t| > 0 && NoSpace(t)
  }

  /** Concatenation of a list of strings. */
  function Concat(ts: seq<string>): string {
    if |ts| == 0 then "" else ts[0] + Concat(ts[1..])
  }

  /** `s` with every whitespace character removed. */
  function Squeeze(s: string): string {
    if |s| == 0 then "" else (if IsSpace(s[0]) then "" else [s[0]]) + Squeeze(s[1..])
  }

  /** Tokens joined by single spaces: `" ".join(ts)`. */
  function JoinSpace(ts: seq<string>): string {
    if |ts| == 0 then ""
    else if |ts| == 1 then ts[0]
    else ts[0] + " " + JoinSpace(ts[1..])
  }

  /** Every token `Split` returns is non-empty and contains no whitespace. */
  lemma {:induction false} SplitTokens(s: string)
    ensures forall i :: 0 <= i < |Split(s)| ==> IsToken(Split(s)[i])
    decreases |s|
  {
    if |s| > 0 {
      if IsSpace(s[0]) {
        SplitTokens(s[1..]);
      } else {
        var w := Word(s);
        SplitTokens(s[|w|..]);
      }
    }
  }

  lemma {:induction false} SqueezeAppend(a: string, b: string)
    ensures Squeeze(a + b) == Squeeze(a) + Squeeze(b)
    decreases |a|
  {
    if |a| == 0 {
      assert a + b == b;
    } else {
      assert (a + b)[1..] == a[1..] + b;
      assert (a + b)[0] == a[0];
      SqueezeAppend(a[1..], b);
      var h: string := if IsSpace(a[0]) then "" else [a[0]];
      assert Squeeze(a + b) == h + Squeeze(a[1..] + b);
    }
  }

  lemma {:induction false} SqueezeUnspaced(w: string)
    requires NoSpace(w)
    ensures Squeeze(w) == w
    decreases |w|
  {
    if |w| > 0 {
      SqueezeUnspaced(w[1..]);
    }
  }

  /** Splitting loses exactly the whitespace: the tokens, concatenated, are the
      input with all whitespace removed. */
  lemma {:induction false} SplitConcat(s: string)
    ensures Concat(Split(s)) == Squeeze(s)
    decreases |s|
  {
    if |s| > 0 {
      if IsSpace(s[0]) {
        SplitConcat(s[1..]);
      } else {
        var w := Word(s);
        var rest := s[|w|..];
        SplitConcat(rest);
        assert s == w + rest;
        SqueezeAppend(w, rest);
        SqueezeUnspaced(w);
        assert Split(s) == [w] + Split(rest);
        assert ([w] + Split(rest))[1..] == Split(rest);
      }
    }
  }

  lemma {:induction false} WordOfToken(w: string, rest: string)
    requires IsToken(w)
    requires |rest| == 0 || IsSpace(rest[0])
    ensures Word(w + rest) == w
    decreases |w|
  {
    var s := w + rest;
    if |w| > 1 {
      assert s[1..] == w[1..] + rest;
      WordOfToken(w[1..], rest);
    } else {
      assert s[1..] == rest;
    }
  }

  /** Round trip: splitting tokens joined by single spaces gives the tokens back. */
  lemma {:induction false} SplitJoinSpace(ts: seq<string>)
    requires forall i :: 0 <= i < |ts| ==> IsToken(ts[i])
    ensures Split(JoinSpace(ts)) == ts
    decreases |ts|
  {
    if |ts| == 1 {
      var w := ts[0];
      WordOfToken(w, "");
      assert w + "" == w;
      assert w[|w|..] == "";
    } else if |ts| > 1 {
      var w := ts[0];
      var tail := JoinSpace(ts[1..]);
      var s := w + (" " + tail);
      assert JoinSpace(ts) == s;
      WordOfToken(w, " " + tail);
      assert s[|w|..] == " " + tail;
      assert (" " + tail)[1..] == tail;
      SplitJoinSpace(ts[1..]);
      assert Split(s) == [w] + ts[1..];
    }
  }
}
